=== FILE: README.md ===
# multifis: splitting, manifest and reassembly, in Dafny

multifis is a command-line tool. It moves files that are larger than an Eludris
instance's attachment limit through that instance's file service (Effis).

- `upload` cuts the file into consecutive parts of at most the attachment limit. It
  posts each part as `"{name}-{index}"`. After every part it consults the
  service's rate-limit headers, and may wait before sending the next part. At the
  end it posts a manifest, `"{name}-meta"`: the file name, then the part ids in
  upload order, separated by NUL characters. It prints the manifest's id.
- `download` fetches the manifest by that id and splits it on NUL. It opens a
  local file under the recovered name for writing, without truncating it, then
  fetches every part in manifest order and writes it right after the previous
  part, starting from the beginning of the file.

This project models the protocol core of `src/main.rs` as pure functions:

- the splitter and the next-part size it gives the rate limiter;
- the manifest encoder and decoder;
- the reassembler;
- the rate-limit decision and the header reads.

The HTTP service, the local file system and the clock are parameters:

- `Uploader.Service` holds the part post, the manifest post, and the clock that
  is read after each part.
- `Reassembler.Store` and `Reassembler.Disk` stand for the object fetches and
  the destination file.

The modules follow the program's structure:

| module | models |
|---|---|
| `Wrappers` | `Option` and `Result`, which stand for Rust's `Option` and `anyhow::Result` |
| `Buffers` | bytes and the concatenation of a list of parts |
| `Decimal` | Rust's `u64::from_str` and the decimal rendering of an index |
| `Splitter` | the part count (the ceiling of the f64 division), the `drain(0..min(len, limit))` cut, and the cursor model of the cut positions |
| `Manifest` | `format!("{}\0{}", name, ids.join("\0"))` and `str::split("\0")` |
| `RateLimiter` | `get_header_value` and `rate_limit` |
| `Destination` | `OpenOptions::create(true).write(true)` and `write_all` on the destination file |
| `Uploader` | the `upload` loop and the manifest post |
| `Reassembler` | the `download` branch |
| `Protocol` | upload followed by download, and the worked 25-byte example |

## Behaviour of the source worth noting

- A manifest with a trailing NUL and no ids (`"photo.png\0"`) decodes to the name
  and one empty id, because Rust's `str::split` yields the empty segment after the
  last separator. `Manifest.TrailingSeparatorIsOneEmptyId` states this.
- The "Invalid metadata format" error in `src/main.rs` cannot occur, because
  `split` always yields at least one segment. `Manifest.Decode` always succeeds: a
  manifest without NUL is a name with no ids.
- The rate limiter is consulted after every part, including the last one. For the
  last part the next-upload size is 0 (`Uploader.UploadSendsFileInOrder`).
- `to_str` fails on a header value that is not visible ASCII. That error carries
  no header name (`RateLimiter.HeaderError.NotText`). Only a missing header and an
  unparseable header are reported with their names.
- A zero attachment limit is not refused: a non-empty file is larger than it, the
  f64 quotient is infinite and saturates to u64::MAX parts, and every drain of
  `min(len, 0)` bytes is empty. `Uploader.ZeroCeilingSendsNoBytes` shows that such
  an upload, if it succeeds, has sent none of the file's bytes.

## Model

| member | source | states |
|---|---|---|
| `Splitter.PartCount` | src/main.rs:51-52 | the number of parts is the least count whose parts of `ceiling` bytes cover the file; with a zero ceiling the f64 quotient is NaN for an empty file, which casts to 0, and infinite otherwise, which saturates to u64::MAX |
| `Splitter.Cut` | src/main.rs:55-57 | one drain takes the front `min(len, ceiling)` bytes, and the front and the rest together are the buffer |
| `Splitter.OffsetClosedForm` | src/main.rs:53-57 | after `k` drains the cursor is at `k * ceiling`, or at the end of the file once that passes it |
| `Splitter.PartSize` | src/main.rs:55-57 | the k-th part is `ceiling` bytes while the file reaches past it, then the remainder, then empty |
| `Splitter.ZeroCeilingPartEmpty` | src/main.rs:55-57 | with a zero limit every part, `drain(0..min(len, 0))`, is empty |
| `Splitter.Parts` | src/main.rs:53-57 | the list of parts holds, at each index, the bytes between the cursors around that index |
| `Splitter.DrainShiftsParts` | src/main.rs:55-57 | draining the front part leaves a buffer whose parts are the later parts of the original |
| `Splitter.NextSizeIsNextPart` | src/main.rs:71-74 | the size passed to the rate limiter after part k, `min(remaining, ceiling)`, is the size of part k+1 |
| `Splitter.PartsConcat` | src/main.rs:53-57 | the first `count` parts, joined, are the file up to the cursor after `count` drains |
| `Splitter.SplitIsExact` | src/main.rs:47-57 | a file longer than the ceiling gives at least two parts; joined, they are the file; every part but the last is full; the last is the remainder modulo the ceiling, or a full part |
| `Decimal.NatToDecimal` | src/main.rs:64 | the decimal rendering of an index is a non-empty string of digits whose value is the index, with no leading zero unless the index is 0 |
| `Decimal.ParseU64` | src/main.rs:175 | a parsed value is below 2^64 and is the value of the one or more digits left after an optional leading `+` |
| `Decimal.ParseU64Reads` | src/main.rs:175 | a string parses exactly when, after an optional leading `+`, it is one or more digits whose value is below 2^64; such a string starts with a digit or `+` |
| `Decimal.ParseDecimal` | src/main.rs:175 | parsing the decimal rendering of n gives n back exactly when n fits in a u64, with or without a leading `+` |
| `Decimal.ParseRejectsSigns` | src/main.rs:175 | the empty string, a lone `+` and anything starting with `-` do not parse |
| `Manifest.SplitOn` | src/main.rs:120 | splitting on NUL yields at least one segment; no segment contains NUL; the segments joined with NUL are the text |
| `Manifest.Encode` | src/main.rs:86-94 | the manifest text is the name and the ids joined with NUL, so it always contains a NUL |
| `Manifest.Decode` | src/main.rs:120-129 | decoding never fails; the name and the ids contain no NUL; text without NUL is a name with no ids; text with a NUL has at least one id and re-encodes to itself |
| `Manifest.SplitJoin` | src/main.rs:89-94 | joining NUL-free segments with NUL and splitting the result again gives back the segments |
| `Manifest.DecodeEncode` | src/main.rs:86-94 | a NUL-free name with at least one NUL-free id decodes back to that name and those ids, in order |
| `Manifest.TrailingSeparatorIsOneEmptyId` | src/main.rs:120-121 | a manifest with no ids ends in NUL, and it decodes to the name and one empty id |
| `RateLimiter.HeaderValueReads` | src/main.rs:170-177 | a header read succeeds exactly when the header is present and parses as a u64, giving the parsed value; a missing header fails naming that header; a present header fails with the non-text error or with a parse error naming the header |
| `RateLimiter.HeaderValueInReadOrder` | src/main.rs:170-177 | a header read fails as missing when absent, then as not text when its value is not visible ASCII, then as unparseable naming the header, and otherwise gives the parsed number, in the source's order |
| `RateLimiter.FirstFailure` | src/main.rs:153-156 | no error comes out of a list of header reads exactly when every header in it can be read |
| `RateLimiter.QuotaFirstFailure` | src/main.rs:153-156 | the error from the four quota headers is the error of the first one, in reading order, that cannot be read |
| `RateLimiter.WindowFirstFailure` | src/main.rs:162-163 | the error from the two reset headers is that of `Reset` if it cannot be read, otherwise that of `Last-Reset` |
| `RateLimiter.RateLimit` | src/main.rs:152-168 | an unreadable quota header fails with the first such error; with readable quota headers and the window not exhausted the upload proceeds; when exhausted, an unreadable reset header fails; a sleep happens only when the quota headers are readable, the window is exhausted and the reset headers are readable |
| `RateLimiter.SleepsIffExhausted` | src/main.rs:157-166 | with every header readable, the limiter sleeps exactly when the request count has reached the maximum or the sent bytes plus the next part exceed the byte maximum, and it sleeps until `last_reset + reset` |
| `RateLimiter.ResetHeadersReadOnlyWhenExhausted` | src/main.rs:157-163 | when the window is not exhausted, the reset headers are never read: without them the decision is still to proceed |
| `RateLimiter.ProceedsOnSameQuota` | src/main.rs:153-157 | headers whose four quota values read the same as those of headers that do not throttle do not throttle either |
| `RateLimiter.QuotaErrorIsFirstInReadOrder` | src/main.rs:153-156 | the limiter fails with the error of the first unreadable quota header, in the order byte maximum, sent bytes, maximum, request count |
| `RateLimiter.ExampleReads` | src/main.rs:170-177 | decimal header values read back as their numbers |
| `RateLimiter.ThrottleExampleSleeps` | src/main.rs:157-165 | 900 of 1000 bytes sent, with a 200-byte next part and a 5000 ms window that began at `t`, sleeps `t + 5000 - now` ms, until the window reopens |
| `RateLimiter.ThrottleExampleProceeds` | src/main.rs:157 | 100 of 1000 bytes sent, with a 200-byte next part and 3 of 10 requests, proceeds without a sleep |
| `RateLimiter.WaitMs` | src/main.rs:164-165 | the corrected wait reaches the wake time: it is exactly the time left, or 0 when the wake time has passed |
| `RateLimiter.WaitAsWritten` | src/main.rs:164-165 | the wait as written is below 2^64 and congruent to the reopening time minus the clock modulo 2^64 (the wrapping u64 difference); it agrees with the corrected wait whenever the wake time has not passed |
| `RateLimiter.WaitAsWrittenUnderflows` | src/main.rs:164-165 | one millisecond past the wake time, the corrected wait is 0, but the u64 difference wraps to 2^64 - 1 |
| `Destination.WriteAll` | src/main.rs:138 | a write overwrites the bytes at the cursor, moves the cursor past them, and leaves the bytes before and beyond them as they were |
| `Destination.WriteAllTwice` | src/main.rs:129-139 | two writes in a row leave the file as one write of both payloads |
| `Destination.UntruncatedOpenKeepsTail` | src/main.rs:122-138 | a write into a file opened without truncation leaves the written bytes followed by the old file's bytes beyond them, when the old file was longer |
| `Destination.StaleTailExample` | src/main.rs:122-138 | 25 bytes written over an existing 30-byte file leave 30 bytes, which are not what was written |
| `Destination.TruncatedOpenHoldsExactly` | src/main.rs:122-138 | after a truncating open, the file holds exactly what was written |
| `Uploader.PartStep` | src/main.rs:58-77 | one iteration fails as a failed part upload exactly when the post under `"{name}-{index}"` fails; after a post it fails with the limiter's error when the limiter fails, and as a malformed response when the limiter proceeds or sleeps but the body has no id; it succeeds exactly when the post, the limiter and the id read all succeed, and then yields the limiter's decision and the body's id; every failure names the part's index |
| `Uploader.UploadParts` | src/main.rs:53-78 | a successful loop records one part, id, next size and decision per iteration |
| `Uploader.UploadPartsTrace` | src/main.rs:53-78 | a successful loop sent the parts of the cursor model in order, and passed each iteration the size of the following part; each iteration produced the recorded id and decision |
| `Uploader.UploadPartsFailFast` | src/main.rs:53-78 | a failed loop stopped at the first iteration that failed, with that iteration's error, after every earlier iteration succeeded |
| `Uploader.Upload` | src/main.rs:47-106 | the upload refuses exactly the files that fit in one attachment; on success it sent `PartCount` parts, and the posted manifest encodes the name and the ids in order, under `"{name}-meta"`; otherwise it fails at a part or at the manifest post |
| `Uploader.PartLoopErrorIsAtPart` | src/main.rs:53-78 | the part loop fails only with the error of some part's iteration |
| `Uploader.UploadRecordIsLoop` | src/main.rs:47-106 | a successful upload is a file larger than the ceiling whose part loop succeeded, and its record is that loop's record |
| `Uploader.UploadSendsFileInOrder` | src/main.rs:47-78 | with a positive attachment limit, a successful upload sent at least two parts that, joined, are the file; every part but the last is full; each next size is the size of the part that follows; the last next size is 0 |
| `Uploader.UploadRecordsEachPart` | src/main.rs:53-78 | every recorded part is the k-th part of the cursor model, and its own iteration produced the recorded id and decision |
| `Uploader.UploadFailsFast` | src/main.rs:53-78 | a failure at a part names the first part whose iteration failed, and every earlier iteration succeeded |
| `Uploader.UploadPartsStopsAt` | src/main.rs:53-78 | a loop whose first failing iteration is `k`, with more than `k` iterations to run, fails with exactly that iteration's error |
| `Uploader.UploadStopsAtFirstFailingPart` | src/main.rs:47-78 | when every part before `k` goes through and part `k`'s iteration fails, the upload fails with that error, before the manifest is posted |
| `Uploader.UploadSucceeds` | src/main.rs:47-106 | when every part's iteration goes through, the upload fails only at the manifest post, and succeeds whenever that post does |
| `Uploader.ZeroCeilingSendsNoBytes` | src/main.rs:47-78 | with a zero limit, a successful upload of a non-empty file sent u64::MAX empty parts, which join to nothing, not to the file |
| `Uploader.UploadAbortsOnRateLimit` | src/main.rs:58-78 | when every part before `k` goes through and the limiter fails on part `k`'s response headers, the upload fails with that rate-limit error at part `k` |
| `Reassembler.Payloads` | src/main.rs:129-137 | the fetched payloads are in the order of the ids |
| `Reassembler.FirstMissing` | src/main.rs:129-137 | the position of the first id that cannot be fetched; every id before it can be fetched, and it is short of the end exactly when some id cannot be fetched |
| `Reassembler.WriteParts` | src/main.rs:129-139 | the download loop fails only with a part-fetch error |
| `Reassembler.WritePartsInOrder` | src/main.rs:129-139 | the loop succeeds exactly when every id can be fetched, and then has written the payloads joined in manifest order; otherwise it fails on the first missing id, with the payloads before that id written |
| `Reassembler.DownloadAsWritten` | src/main.rs:108-141 | the source's download fails with the manifest-fetch error exactly when the manifest cannot be fetched, and never reports a malformed manifest |
| `Reassembler.Download` | src/main.rs:108-141 | the download fails with the manifest-fetch error exactly when the manifest cannot be fetched, and never reports a malformed manifest |
| `Reassembler.DownloadReassembles` | src/main.rs:113-139 | once the manifest is fetched and the destination opened, the download succeeds exactly when every part can be fetched; the file then holds the payloads of the manifest's ids joined in order; otherwise the error names the first missing id |
| `Reassembler.DownloadWithReassembles` | src/main.rs:113-139 | for either way of opening, once the manifest is fetched: the download fails to create exactly when the destination cannot be opened; otherwise it succeeds exactly when every part can be fetched, writing the payloads in manifest order over the opened file, and else names the first missing id |
| `Reassembler.DownloadAsWrittenReassembles` | src/main.rs:113-139 | the source's download fails to create exactly when the destination cannot be opened; otherwise it succeeds exactly when every part can be fetched, leaving the payloads in order followed by the old file's bytes beyond them, and else names the first missing id |
| `Reassembler.DownloadAsWrittenKeepsStaleTail` | src/main.rs:122-139 | the download as written leaves the truncating download's bytes followed by the old file's bytes beyond them |
| `Protocol.RoundTrip` | src/main.rs:47-139 | for a positive attachment limit, the truncating download of a successful upload, from a service that keeps what it was given, gives back the file name and exactly the file's bytes, provided the name and the ids contain no NUL |
| `Protocol.RoundTripAsWritten` | src/main.rs:47-139 | for a positive attachment limit, the source's non-truncating download gives the same result when the destination is new, empty or no longer than the file |
| `Protocol.TwentyFiveBytesInThreeParts` | src/main.rs:47-74 | 25 bytes with a 10-byte limit go out as three parts of 10, 10 and 5 bytes, and the limiter is told 0 after the last |
| `Protocol.TwentyFiveBytesRejoin` | src/main.rs:53-57 | the three parts of the 25-byte example, joined, are the file |
| `Protocol.ExampleManifestDecodes` | src/main.rs:120-129 | `"f.bin\0id1\0id2\0id3"` decodes to `f.bin` and the ids `id1`, `id2`, `id3`, in order |

## Left out

- HTTP, JSON, multipart forms and `get_instance_info` are left out. A request that
  fails, and a response body that does not deserialise, are the absent results of
  the `Service` and `Store` functions. An HTTP error status is not distinguished
  from a success, as in the source.
- The command line is left out: argument handling, the subcommand dispatch, reading
  the input file and `PathBuf::file_name`. The upload starts from the file's bytes,
  its name and the attachment limit.
- `eprintln!` and `println!` output (progress lines, the printed meta id) is left
  out. The meta id is the `metaId` of `Uploader.Uploaded`.
- `tokio::time::sleep` and `SystemTime::now()` are left out. The limiter returns
  `Sleep(ms)` instead of sleeping. The time in milliseconds is a parameter: the
  upload reads it from `Service.clock` after part `index`. A clock before the Unix
  epoch (`unwrap_or(Duration::ZERO)`) and the `as u64` truncation of the
  milliseconds are not modelled.
- `Splitter.PartCount` uses exact integer ceiling division. The source divides in
  f64, which is exact only for sizes below 2^53 bytes.
- `RateLimiter.RateLimit`: `sent_bytes + next_upload` and `last_reset + reset` are
  unbounded sums here. In the source either can overflow a u64: it panics in a
  debug build and wraps in a release build. Only header values near 2^64 reach
  that. The contract also
  states the length of a sleep in `RateLimiter.SleepsIffExhausted` rather than in
  its own ensures.
- `RateLimiter.RateLimit` sleeps for `WaitMs`, the corrected wait (see Findings),
  not for the wrapping u64 difference.
- `RateLimiter.HeaderValue` states only the u64 bound in its own contract. What
  it reads is stated in `RateLimiter.HeaderValueReads`.
- Headers are a map from lower-case names to values. Only the first value of a
  repeated header is read, as `HeaderMap::get` does, and case-insensitive lookup
  is assumed to have produced the map. Header values are strings of characters;
  opaque non-ASCII bytes are characters outside the visible range.
- `Uploader.UploadParts` states only the shape of its record in its own contract.
  The trace and the failure point are stated in `Uploader.UploadPartsTrace` and
  `Uploader.UploadPartsFailFast`.
- `Reassembler.Download` opens the destination truncating (see Findings). The
  source's behaviour is `Reassembler.DownloadAsWritten`.
- Partial writes and write errors of `write_all` are left out: a write always
  completes. A destination that cannot be opened or created is `Disk` giving no
  contents.
- The download reads the response body as bytes; errors while reading it count as
  a failed fetch of that part.
- The rendering of ids by `to_string` is the id itself: ids are strings.
- `Protocol.RoundTrip`, `Protocol.RoundTripAsWritten` and `Uploader.UploadSendsFileInOrder`
  assume a positive attachment limit. With a zero limit the source sends only
  empty parts (`Uploader.ZeroCeilingSendsNoBytes`), so there is no round trip to
  state.
- `Uploader.UploadError`: the part errors carry the index of their part. In the
  source, `send().await?`, `rate_limit(...).await?` and `json().await?` pass the
  underlying error on unchanged, and only the progress line shows the index.

## Findings

| source | as written | input that shows it | evidently intended | confidence | as-written member | corrected member |
|---|---|---|---|---|---|---|
| src/main.rs:164-165 | the wait is `last_reset + reset - now` in u64 | `now` one millisecond past `last_reset + reset` (a slow response, or a window that has already reset): the difference underflows, so a release build sleeps about 2^64 ms and a debug build panics | wait until the reset time, or not at all once it has passed | not executed | `RateLimiter.WaitAsWrittenUnderflows` | `RateLimiter.WaitMs` |
| src/main.rs:122-127 | the destination is opened with `create(true).write(true)` and no `truncate(true)` | an existing 30-byte file under the manifest's name, downloading a 25-byte file: the result is 30 bytes, the 25 downloaded ones followed by the old file's last 5 | the destination holds exactly the downloaded bytes | not executed | `Reassembler.DownloadAsWrittenKeepsStaleTail` | `Reassembler.DownloadReassembles` |

=== FILE: buffers.dfy ===
/** Byte buffers and the concatenation of a sequence of them. */
module Buffers {

  newtype byte = x: int | 0 <= x < 256

  type Bytes = seq<byte>

  /** The pieces joined end to end, in order. */
  function Concat<T>(pieces: seq<seq<T>>): (r: seq<T>)
  {
    if |pieces| == 0 then [] else Concat(pieces[..|pieces| - 1]) + pieces[|pieces| - 1]
  }

  /** Appending a piece appends its contents. */
  lemma ConcatSnoc<T>(pieces: seq<seq<T>>, last: seq<T>)
    ensures Concat(pieces + [last]) == Concat(pieces) + last
  {
    assert (pieces + [last])[..|pieces|] == pieces;
  }

  /** Concatenation read from the front: the first piece comes first. */
  lemma {:induction false} ConcatCons<T>(first: seq<T>, rest: seq<seq<T>>)
    ensures Concat([first] + rest) == first + Concat(rest)
    decreases |rest|
  {
    if |rest| == 0 {
      assert [first] + rest == [first];
      assert Concat([first]) == Concat([]) + first;
    } else {
      var init := rest[..|rest| - 1];
      var last := rest[|rest| - 1];
      assert rest == init + [last];
      assert [first] + rest == ([first] + init) + [last];
      ConcatSnoc([first] + init, last);
      ConcatCons(first, init);
      ConcatSnoc(init, last);
    }
  }
}

=== FILE: decimal.dfy ===
/** Decimal text of unsigned integers: the rendering used for part names and the
    `u64` parse used for rate-limit header values. */
module Decimal {
  import opened Wrappers

  /** 2^64: every value of a Rust `u64` is below it. */
  const U64_MODULUS: nat := 0x1_0000_0000_0000_0000

  predicate IsDigit(ch: char) {
    '0' <= ch <= '9'
  }

  predicate AllDigits(s: string) {
    forall i :: 0 <= i < |s| ==> IsDigit(s[i])
  }

  function DigitValue(ch: char): (d: nat)
    requires IsDigit(ch)
    ensures d < 10
  {
    ch as int - '0' as int
  }

  function DigitChar(d: nat): (ch: char)
    requires d < 10
    ensures IsDigit(ch) && DigitValue(ch) == d
  {
    ('0' as int + d) as char
  }

  /** Value of a string of decimal digits, most significant first. */
  function DigitsValue(s: string): nat
    requires AllDigits(s)
  {
    if |s| == 0 then 0 else DigitsValue(s[..|s| - 1]) * 10 + DigitValue(s[|s| - 1])
  }

  /** Shortest decimal rendering of `n` (Rust's `to_string` on an unsigned integer):
      digits whose value is `n`, with no leading zero unless `n` is 0. */
  function NatToDecimal(n: nat): (s: string)
    ensures |s| > 0 && AllDigits(s)
    ensures DigitsValue(s) == n
    ensures |s| > 1 ==> s[0] != '0'
    ensures n > 0 ==> s[0] != '0'
  {
    if n < 10 then [DigitChar(n)]
    else
      var front := NatToDecimal(n / 10);
      var s := front + [DigitChar(n % 10)];
      assert s[..|s| - 1] == front && s[0] == front[0];
      s
  }

  /** The digits of `s` once an optional leading `+` is dropped. */
  function Unsigned(s: string): string {
    if 0 < |s| && s[0] == '+' then s[1..] else s
  }

  /** Rust's `str::parse::<u64>`: an optional leading `+`, then one or more ASCII
      digits whose value fits in 64 bits; anything else is an error. */
  function ParseU64(s: string): (r: Option<nat>)
    ensures r.Some? ==> r.value < U64_MODULUS
    ensures r.Some? ==> |Unsigned(s)| > 0 && AllDigits(Unsigned(s)) && r.value == DigitsValue(Unsigned(s))
  {
    var digits := Unsigned(s);
    if |digits| == 0 || !AllDigits(digits) then None
    else if DigitsValue(digits) < U64_MODULUS then Some(DigitsValue(digits))
    else None
  }

  /** A string parses exactly when, after an optional `+`, it is one or more digits
      whose value is below 2^64; so it starts with a digit or a `+`. */
  lemma ParseU64Reads(s: string)
    ensures ParseU64(s).Some? <==>
      |Unsigned(s)| > 0 && AllDigits(Unsigned(s)) && DigitsValue(Unsigned(s)) < U64_MODULUS
    ensures ParseU64(s).Some? ==> IsDigit(s[0]) || s[0] == '+'
  {
    if ParseU64(s).Some? && s[0] != '+' {
      assert Unsigned(s) == s;
    }
  }

  /** Parsing inverts rendering on exactly the `u64` range, with or without a leading `+`. */
  lemma ParseDecimal(n: nat)
    ensures ParseU64(NatToDecimal(n)) == (if n < U64_MODULUS then Some(n) else None)
    ensures ParseU64("+" + NatToDecimal(n)) == ParseU64(NatToDecimal(n))
  {
    var s := NatToDecimal(n);
    assert ("+" + s)[1..] == s;
  }

  /** A sign-less empty string, a lone `+` and any `-` prefix are all rejected. */
  lemma ParseRejectsSigns(s: string)
    ensures ParseU64("") == None
    ensures ParseU64("+") == None
    ensures ParseU64("-" + s) == None
  {
    assert !IsDigit(("-" + s)[0]);
  }
}

=== FILE: destination.dfy ===
/** The file the download writes to: its bytes and a write cursor. Opening sets the
    cursor to the start, keeping the old bytes unless the file is truncated; each
    `write_all` overwrites from the cursor and moves it past the data. */
module Destination {
  import opened Buffers

  datatype Handle = Handle(contents: Bytes, cursor: nat) {
    predicate Valid() {
      cursor <= |contents|
    }
  }

  /** Opening an existing file (or a new, empty one) for writing. */
  function Open(prior: Bytes, truncate: bool): (f: Handle)
    ensures f.Valid() && f.cursor == 0
    ensures truncate ==> f.contents == []
    ensures !truncate ==> f.contents == prior
  {
    Handle(if truncate then [] else prior, 0)
  }

  /** Writing `data` at the cursor: the bytes before the cursor stay, `data` replaces
      what follows, and anything beyond the end of `data` survives. */
  function WriteAll(f: Handle, data: Bytes): (g: Handle)
    requires f.Valid()
    ensures g.Valid() && g.cursor == f.cursor + |data|
    ensures g.contents[..f.cursor] == f.contents[..f.cursor]
    ensures g.contents[f.cursor..g.cursor] == data
    ensures |g.contents| == if g.cursor < |f.contents| then |f.contents| else g.cursor
    ensures g.cursor < |f.contents| ==> g.contents[g.cursor..] == f.contents[g.cursor..]
  {
    var end := f.cursor + |data|;
    var tail := if end < |f.contents| then f.contents[end..] else [];
    Handle(f.contents[..f.cursor] + data + tail, end)
  }

  /** Two writes in a row are one write of both pieces. */
  lemma WriteAllTwice(f: Handle, a: Bytes, b: Bytes)
    requires f.Valid()
    ensures WriteAll(WriteAll(f, a), b) == WriteAll(f, a + b)
  {
    var g := WriteAll(WriteAll(f, a), b);
    var g' := WriteAll(f, a + b);
    assert g.contents == g'.contents by {
      assert |g.contents| == |g'.contents|;
      forall i | 0 <= i < |g.contents| ensures g.contents[i] == g'.contents[i] {
        if i < f.cursor {
          assert g.contents[i] == WriteAll(f, a).contents[..f.cursor][i];
        } else if i < f.cursor + |a| {
          assert g.contents[i] == WriteAll(f, a).contents[f.cursor..f.cursor + |a|][i - f.cursor];
        } else if i < f.cursor + |a| + |b| {
          assert g.contents[i] == g.contents[f.cursor + |a|..g.cursor][i - f.cursor - |a|];
        } else {
          assert g.contents[i] == g.contents[g.cursor..][i - g.cursor];
          assert g'.contents[i] == g'.contents[g'.cursor..][i - g'.cursor];
        }
      }
    }
  }

  /** Writing into a file opened without truncation leaves the old file's bytes past
      the end of what was written: a longer existing file keeps a stale tail. */
  lemma UntruncatedOpenKeepsTail(prior: Bytes, data: Bytes)
    ensures WriteAll(Open(prior, false), data).contents
              == if |data| < |prior| then data + prior[|data|..] else data
  {
  }

  /** A concrete instance: 25 bytes written over an existing 30-byte file leave 30. */
  lemma StaleTailExample(prior: Bytes, data: Bytes)
    requires |prior| == 30 && |data| == 25
    ensures |WriteAll(Open(prior, false), data).contents| == 30
    ensures WriteAll(Open(prior, false), data).contents != data
  {
  }

  /** With truncation the file holds exactly what was written, whatever it held before. */
  lemma TruncatedOpenHoldsExactly(prior: Bytes, data: Bytes)
    ensures WriteAll(Open(prior, true), data).contents == data
  {
  }
}

=== FILE: manifest.dfy ===
/** The manifest object: the original file name followed by the part ids, in
    upload order, all separated by NUL characters. */
module Manifest {
  import opened Wrappers

  const NUL: char := '\0'

  datatype Manifest = Manifest(name: string, ids: seq<string>)

  /** `segs.join(sep)`: the segments with one separator between neighbours. */
  function Join(segs: seq<string>, sep: char): string
  {
    if |segs| == 0 then ""
    else if |segs| == 1 then segs[0]
    else segs[0] + [sep] + Join(segs[1..], sep)
  }

  /** `s.split(sep)`: the maximal separator-free runs of `s`, one more than the number
      of separators, so never an empty list. */
  function SplitOn(s: string, sep: char): (segs: seq<string>)
    ensures |segs| >= 1
    ensures forall k :: 0 <= k < |segs| ==> sep !in segs[k]
    ensures Join(segs, sep) == s
    ensures sep !in s ==> segs == [s]
  {
    if |s| == 0 then [""]
    else
      var rest := SplitOn(s[1..], sep);
      if s[0] == sep then
        JoinAfterEmpty(rest, sep);
        assert s == [sep] + s[1..];
        [""] + rest
      else
        JoinGrowFirst(s[0], rest, sep);
        assert s == [s[0]] + s[1..];
        [[s[0]] + rest[0]] + rest[1..]
  }

  /** An empty first segment contributes only its separator. */
  lemma JoinAfterEmpty(segs: seq<string>, sep: char)
    requires |segs| >= 1
    ensures Join([""] + segs, sep) == [sep] + Join(segs, sep)
  {
    assert ([""] + segs)[1..] == segs;
  }

  /** Putting a character in front of the first segment puts it in front of the join. */
  lemma JoinGrowFirst(c: char, segs: seq<string>, sep: char)
    requires |segs| >= 1
    ensures Join([[c] + segs[0]] + segs[1..], sep) == [c] + Join(segs, sep)
  {
    var grown := [[c] + segs[0]] + segs[1..];
    if |segs| > 1 {
      assert grown[1..] == segs[1..];
    }
  }

  /** The text uploaded as the manifest: `format!("{}\0{}", name, ids.join("\0"))`. */
  function Encode(name: string, ids: seq<string>): (text: string)
    ensures |ids| > 0 ==> text == Join([name] + ids, NUL)
    ensures NUL in text
  {
    assert (name + [NUL] + Join(ids, NUL))[|name|] == NUL;
    assert ([name] + ids)[1..] == ids;
    name + [NUL] + Join(ids, NUL)
  }

  /** Reading a manifest: the first NUL-separated segment is the file name, the rest are
      the part ids in order. The split always yields a segment, so the "Invalid metadata
      format" error is never produced. */
  function Decode(text: string): (r: Option<Manifest>)
    ensures r.Some?
    ensures NUL !in r.value.name && forall k :: 0 <= k < |r.value.ids| ==> NUL !in r.value.ids[k]
    ensures NUL !in text ==> r.value == Manifest(text, [])
    ensures NUL in text ==> |r.value.ids| > 0 && Encode(r.value.name, r.value.ids) == text
  {
    var segs := SplitOn(text, NUL);
    if |segs| == 0 then None
    else
      assert segs == [segs[0]] + segs[1..];
      Some(Manifest(segs[0], segs[1..]))
  }

  /** Splitting a separator-free prefix off joined text. */
  lemma {:induction false} SplitPrefix(a: string, sep: char, t: string)
    requires sep !in a
    ensures SplitOn(a + [sep] + t, sep) == [a] + SplitOn(t, sep)
    decreases |a|
  {
    var s := a + [sep] + t;
    if |a| == 0 {
      assert s[1..] == t;
    } else {
      assert s[1..] == a[1..] + [sep] + t;
      SplitPrefix(a[1..], sep, t);
      assert [s[0]] + a[1..] == a;
    }
  }

  /** Splitting inverts joining when no segment contains the separator and there is at
      least one segment. */
  lemma {:induction false} SplitJoin(segs: seq<string>, sep: char)
    requires |segs| > 0
    requires forall k :: 0 <= k < |segs| ==> sep !in segs[k]
    ensures SplitOn(Join(segs, sep), sep) == segs
    decreases |segs|
  {
    if |segs| > 1 {
      SplitPrefix(segs[0], sep, Join(segs[1..], sep));
      SplitJoin(segs[1..], sep);
      assert [segs[0]] + segs[1..] == segs;
    }
  }

  /** Decoding inverts encoding whenever the name and every id are NUL-free and there is
      at least one id. */
  lemma DecodeEncode(name: string, ids: seq<string>)
    requires NUL !in name
    requires forall k :: 0 <= k < |ids| ==> NUL !in ids[k]
    requires |ids| > 0
    ensures Decode(Encode(name, ids)) == Some(Manifest(name, ids))
  {
    var segs := [name] + ids;
    assert forall k :: 0 <= k < |segs| ==> NUL !in segs[k] by {
      forall k | 0 <= k < |segs| ensures NUL !in segs[k] {
        if k > 0 { assert segs[k] == ids[k - 1]; }
      }
    }
    SplitJoin(segs, NUL);
    assert segs[1..] == ids;
  }

  /** Encoding an empty id list does not round-trip: the trailing NUL is followed by an
      empty segment, which the split reports as one empty id. */
  lemma TrailingSeparatorIsOneEmptyId(name: string)
    requires NUL !in name
    ensures Encode(name, []) == name + [NUL]
    ensures Decode(name + [NUL]) == Some(Manifest(name, [""]))
  {
    SplitPrefix(name, NUL, "");
  }
}

=== FILE: protocol.dfy ===
/** The two subcommands put together: what `upload` leaves on the service is what
    `download` needs to rebuild the file. */
module Protocol {
  import opened Wrappers
  import opened Buffers
  import opened Splitter
  import opened Manifest
  import opened Uploader
  import opened Reassembler

  /** The service keeps what it was given: the manifest under the id returned for it,
      and every part under the id returned for that part. */
  predicate Keeps(store: Store, u: Uploaded) {
    && store.text(u.metaId) == Some(u.manifest)
    && |u.sent.ids| == |u.sent.parts|
    && forall k :: 0 <= k < |u.sent.ids| ==> store.bytes(u.sent.ids[k]) == Some(u.sent.parts[k])
  }

  /** End to end: an upload whose file name and returned ids contain no NUL, read back
      from a service that keeps what it was given, downloads to the same name and
      exactly the original bytes, the parts fetched in the order they were sent. */
  lemma RoundTrip(svc: Service, name: string, file: Bytes, ceiling: nat, u: Uploaded, store: Store, disk: Disk)
    requires ceiling > 0
    requires Upload(svc, name, file, ceiling) == Success(u)
    requires NUL !in name
    requires forall k :: 0 <= k < |u.sent.ids| ==> NUL !in u.sent.ids[k]
    requires Keeps(store, u)
    requires disk(name).Some?
    ensures Download(store, u.metaId, disk) == Success(Downloaded(name, u.sent.ids, file))
  {
    UploadSendsFileInOrder(svc, name, file, ceiling);
    DecodeEncode(name, u.sent.ids);
    DownloadReassembles(store, u.metaId, disk);
    assert Fetchable(store.bytes, u.sent.ids);
    assert Payloads(store.bytes, u.sent.ids) == u.sent.parts;
  }

  /** The same round trip through the download as written, which does not truncate:
      it also rebuilds the file exactly when the destination is new, empty, or no
      longer than the original (a longer one keeps a stale tail; see
      `DownloadAsWrittenKeepsStaleTail`). */
  lemma RoundTripAsWritten(svc: Service, name: string, file: Bytes, ceiling: nat, u: Uploaded, store: Store, disk: Disk)
    requires ceiling > 0
    requires Upload(svc, name, file, ceiling) == Success(u)
    requires NUL !in name
    requires forall k :: 0 <= k < |u.sent.ids| ==> NUL !in u.sent.ids[k]
    requires Keeps(store, u)
    requires disk(name).Some? && |disk(name).value| <= |file|
    ensures DownloadAsWritten(store, u.metaId, disk) == Success(Downloaded(name, u.sent.ids, file))
  {
    RoundTrip(svc, name, file, ceiling, u, store, disk);
    DownloadAsWrittenKeepsStaleTail(store, u.metaId, disk);
  }

  /** The worked example: 25 bytes with a 10-byte ceiling go out as three parts of 10,
      10 and 5 bytes, and the next size reported to the limiter after the last part
      is 0. */
  lemma TwentyFiveBytesInThreeParts(file: Bytes)
    requires |file| == 25
    ensures PartCount(|file|, 10) == 3
    ensures |PartAt(file, 10, 0)| == 10 && |PartAt(file, 10, 1)| == 10 && |PartAt(file, 10, 2)| == 5
    ensures |PartAt(file, 10, 3)| == 0
  {
    PartSize(file, 10, 0);
    PartSize(file, 10, 1);
    PartSize(file, 10, 2);
    PartSize(file, 10, 3);
  }

  /** The three parts of the worked example, joined, are the file. */
  lemma TwentyFiveBytesRejoin(file: Bytes)
    requires |file| == 25
    ensures Concat(Parts(file, 10, 3)) == file
  {
    assert PartCount(|file|, 10) == 3;
    SplitIsExact(file, 10);
  }

  /** The worked example's manifest decodes to its name and its three ids in order. */
  lemma ExampleManifestDecodes()
    ensures Decode("f.bin\0id1\0id2\0id3") == Some(Manifest("f.bin", ["id1", "id2", "id3"]))
  {
    assert Encode("f.bin", ["id1", "id2", "id3"]) == "f.bin\0id1\0id2\0id3";
    DecodeEncode("f.bin", ["id1", "id2", "id3"]);
  }
}

=== FILE: ratelimit.dfy ===
/** The throttle applied after every part upload: it reads the quota headers of the
    response and decides whether, and for how long, to sleep before going on. */
module RateLimiter {
  import opened Wrappers
  import opened Decimal

  /** Response headers by name. A header map matches names case-insensitively and
      stores them in lower case, so the names below are the canonical keys of the
      source's `X-RateLimit-…` spellings. Only the first value of a name is kept. */
  type Headers = map<string, string>

  const BYTE_MAX: string := "x-ratelimit-byte-max"
  const SENT_BYTES: string := "x-ratelimit-sent-bytes"
  const MAX: string := "x-ratelimit-max"
  const REQUEST_COUNT: string := "x-ratelimit-request-count"
  const RESET: string := "x-ratelimit-reset"
  const LAST_RESET: string := "x-ratelimit-last-reset"

  /** Headers read on every call, in the order they are read. */
  const QUOTA_HEADERS: seq<string> := [BYTE_MAX, SENT_BYTES, MAX, REQUEST_COUNT]
  /** Headers read only once the window is found exhausted, in order. */
  const WINDOW_HEADERS: seq<string> := [RESET, LAST_RESET]

  /** Why a header could not be read. A value that is not visible ASCII fails the
      conversion to text, whose error carries no header name. */
  datatype HeaderError = Missing(name: string) | NotText | Unparseable(name: string)

  datatype Decision = Proceed | Sleep(ms: nat)

  /** Visible ASCII or a tab: what a header value must be made of to read as text. */
  predicate VisibleAscii(s: string) {
    forall i :: 0 <= i < |s| ==> s[i] == '\t' || ' ' <= s[i] <= '~'
  }

  /** A header read as a `u64`: missing, not text, or not a number are errors. The
      parse is tried before the text check here; `HeaderValueInReadOrder` shows this
      agrees with converting to text first, since every number is text. */
  function HeaderValue(h: Headers, name: string): (r: Result<nat, HeaderError>)
    ensures r.Success? ==> r.value < U64_MODULUS
  {
    if name !in h then Failure(Missing(name))
    else match ParseU64(h[name])
      case Some(v) => Success(v)
      case None => if VisibleAscii(h[name]) then Failure(Unparseable(name)) else Failure(NotText)
  }

  /** The read in the source's order: look the header up, convert it to text, then
      parse the text. */
  lemma HeaderValueInReadOrder(h: Headers, name: string)
    ensures HeaderValue(h, name) ==
      if name !in h then Failure(Missing(name))
      else if !VisibleAscii(h[name]) then Failure(NotText)
      else if ParseU64(h[name]).None? then Failure(Unparseable(name))
      else Success(ParseU64(h[name]).value)
  {
    if name in h {
      ParsedIsVisible(h[name]);
    }
  }

  /** A header reads as a number exactly when it is present and parses as a `u64`, and
      then as the parsed value; it is reported missing exactly when absent, and any
      other error names the header unless the value was not text at all. */
  lemma HeaderValueReads(h: Headers, name: string)
    ensures HeaderValue(h, name).Success? <==> name in h && ParseU64(h[name]).Some?
    ensures HeaderValue(h, name).Success? ==> HeaderValue(h, name).value == ParseU64(h[name]).value
    ensures HeaderValue(h, name) == Failure(Missing(name)) <==> name !in h
    ensures HeaderValue(h, name).Failure? ==>
      HeaderValue(h, name).error in {Missing(name), NotText, Unparseable(name)}
  {
    if name in h {
      ParsedIsVisible(h[name]);
    }
  }

  /** Anything that parses as a number is visible ASCII. */
  lemma ParsedIsVisible(s: string)
    ensures ParseU64(s).Some? ==> VisibleAscii(s)
  {
    if ParseU64(s).Some? {
      var digits := Unsigned(s);
      assert AllDigits(digits);
      forall i | 0 <= i < |s| ensures s[i] == '\t' || ' ' <= s[i] <= '~' {
        if !(0 < |s| && s[0] == '+') || i > 0 {
          assert s[i] == digits[i - (|s| - |digits|)];
        }
      }
    }
  }

  predicate Readable(h: Headers, name: string) {
    HeaderValue(h, name).Success?
  }

  /** Position of the first header in `names` that cannot be read (`|names|` when all can). */
  function FirstUnreadable(h: Headers, names: seq<string>): (k: nat)
    ensures k <= |names|
    ensures forall j :: 0 <= j < k ==> Readable(h, names[j])
    ensures k < |names| ==> !Readable(h, names[k])
  {
    if |names| == 0 then 0
    else if !Readable(h, names[0]) then 0
    else 1 + FirstUnreadable(h, names[1..])
  }

  /** The error of the first header in `names` that cannot be read, if any. */
  function FirstFailure(h: Headers, names: seq<string>): (r: Option<HeaderError>)
    ensures r.None? <==> forall j :: 0 <= j < |names| ==> Readable(h, names[j])
  {
    var k := FirstUnreadable(h, names);
    if k < |names| then Some(HeaderValue(h, names[k]).error) else None
  }

  /** All four quota headers can be read. */
  predicate QuotaReadable(h: Headers) {
    Readable(h, BYTE_MAX) && Readable(h, SENT_BYTES) && Readable(h, MAX) && Readable(h, REQUEST_COUNT)
  }

  /** Both window headers can be read. */
  predicate WindowReadable(h: Headers) {
    Readable(h, RESET) && Readable(h, LAST_RESET)
  }

  /** Unfolds the read order of the quota headers. */
  lemma QuotaFirstFailure(h: Headers)
    ensures FirstFailure(h, QUOTA_HEADERS) ==
      if !Readable(h, BYTE_MAX) then Some(HeaderValue(h, BYTE_MAX).error)
      else if !Readable(h, SENT_BYTES) then Some(HeaderValue(h, SENT_BYTES).error)
      else if !Readable(h, MAX) then Some(HeaderValue(h, MAX).error)
      else if !Readable(h, REQUEST_COUNT) then Some(HeaderValue(h, REQUEST_COUNT).error)
      else None
  {
    var k := FirstUnreadable(h, QUOTA_HEADERS);
    assert QUOTA_HEADERS[0] == BYTE_MAX && QUOTA_HEADERS[1] == SENT_BYTES;
    assert QUOTA_HEADERS[2] == MAX && QUOTA_HEADERS[3] == REQUEST_COUNT;
    if !Readable(h, BYTE_MAX) {
      assert k == 0;
    } else if !Readable(h, SENT_BYTES) {
      assert k == 1;
    } else if !Readable(h, MAX) {
      assert k == 2;
    } else if !Readable(h, REQUEST_COUNT) {
      assert k == 3;
    } else {
      assert k == 4;
    }
  }

  /** Unfolds the read order of the window headers. */
  lemma WindowFirstFailure(h: Headers)
    ensures FirstFailure(h, WINDOW_HEADERS) ==
      if !Readable(h, RESET) then Some(HeaderValue(h, RESET).error)
      else if !Readable(h, LAST_RESET) then Some(HeaderValue(h, LAST_RESET).error)
      else None
  {
    var k := FirstUnreadable(h, WINDOW_HEADERS);
    assert WINDOW_HEADERS[0] == RESET && WINDOW_HEADERS[1] == LAST_RESET;
    if !Readable(h, RESET) {
      assert k == 0;
    } else if !Readable(h, LAST_RESET) {
      assert k == 1;
    } else {
      assert k == 2;
    }
  }

  /** The window is exhausted when the request quota is used up or the next upload
      would go over the byte quota. */
  predicate Exhausted(byteMax: nat, sentBytes: nat, max: nat, requestCount: nat, nextUpload: nat) {
    max == requestCount || sentBytes + nextUpload > byteMax
  }

  /** The sleep before the window reopens at `wakeAt`: the least wait after which the
      clock has reached `wakeAt`, so nothing once it already has. */
  function WaitMs(wakeAt: nat, now: nat): (ms: nat)
    ensures now + ms >= wakeAt
    ensures ms == 0 || now + ms == wakeAt
  {
    if wakeAt >= now then wakeAt - now else 0
  }

  /** The source's `last_reset + reset - now` on `u64` as a release build computes it,
      wrapping modulo 2^64 (a debug build panics instead when `now` is past `wakeAt`). */
  function WaitAsWritten(wakeAt: nat, now: nat): (ms: nat)
    ensures ms < U64_MODULUS
    ensures now <= wakeAt < now + U64_MODULUS ==> ms == WaitMs(wakeAt, now)
    ensures (wakeAt - now - ms) % U64_MODULUS == 0
  {
    (wakeAt - now) % U64_MODULUS
  }

  /** When the clock is already past the reopening time, the source's wait wraps round
      to almost 2^64 milliseconds instead of zero. */
  lemma WaitAsWrittenUnderflows(wakeAt: nat)
    ensures WaitMs(wakeAt, wakeAt + 1) == 0
    ensures WaitAsWritten(wakeAt, wakeAt + 1) == U64_MODULUS - 1
  {}

  /** Whether the quota headers say the window is exhausted for the next upload. */
  predicate WindowExhausted(h: Headers, nextUpload: nat)
    requires QuotaReadable(h)
  {
    Exhausted(HeaderValue(h, BYTE_MAX).value, HeaderValue(h, SENT_BYTES).value,
              HeaderValue(h, MAX).value, HeaderValue(h, REQUEST_COUNT).value, nextUpload)
  }

  /** `rate_limit(headers, next_upload)`: read byte max, sent bytes, max and request
      count; when the window is exhausted read reset and last reset and sleep until
      `last_reset + reset` by the clock reading `now`. The error reported is that of
      the first header read that fails. */
  function RateLimit(h: Headers, nextUpload: nat, now: nat): (r: Result<Decision, HeaderError>)
    ensures !QuotaReadable(h) ==> r.Failure? && Some(r.error) == FirstFailure(h, QUOTA_HEADERS)
    ensures QuotaReadable(h) && !WindowExhausted(h, nextUpload) ==> r == Success(Proceed)
    ensures QuotaReadable(h) && WindowExhausted(h, nextUpload) && !WindowReadable(h) ==>
              r.Failure? && Some(r.error) == FirstFailure(h, WINDOW_HEADERS)
    ensures r.Success? && r.value.Sleep? ==> QuotaReadable(h) && WindowExhausted(h, nextUpload) && WindowReadable(h)
  {
    QuotaFirstFailure(h);
    WindowFirstFailure(h);
    var byteMax :- HeaderValue(h, BYTE_MAX);
    var sentBytes :- HeaderValue(h, SENT_BYTES);
    var max :- HeaderValue(h, MAX);
    var requestCount :- HeaderValue(h, REQUEST_COUNT);
    if Exhausted(byteMax, sentBytes, max, requestCount, nextUpload) then
      var reset :- HeaderValue(h, RESET);
      var lastReset :- HeaderValue(h, LAST_RESET);
      Success(Sleep(WaitMs(lastReset + reset, now)))
    else
      Success(Proceed)
  }

  /** With all six headers readable the call never fails; it sleeps exactly when the
      request quota is used up or the next upload would pass the byte quota, and then
      until `last_reset + reset`, which is `last_reset + reset - now` milliseconds while
      that time is still ahead. */
  lemma SleepsIffExhausted(h: Headers, nextUpload: nat, now: nat)
    requires QuotaReadable(h) && WindowReadable(h)
    ensures RateLimit(h, nextUpload, now).Success?
    ensures RateLimit(h, nextUpload, now).value.Sleep? <==>
      HeaderValue(h, MAX).value == HeaderValue(h, REQUEST_COUNT).value
      || HeaderValue(h, SENT_BYTES).value + nextUpload > HeaderValue(h, BYTE_MAX).value
    ensures RateLimit(h, nextUpload, now).value.Sleep? ==>
      var wakeAt := HeaderValue(h, LAST_RESET).value + HeaderValue(h, RESET).value;
      now + RateLimit(h, nextUpload, now).value.ms >= wakeAt
      && (now <= wakeAt ==> RateLimit(h, nextUpload, now).value.ms == wakeAt - now)
  {}

  /** A call that does not throttle never looks at the reset headers, so removing them
      changes nothing. */
  lemma ResetHeadersReadOnlyWhenExhausted(h: Headers, nextUpload: nat, now: nat)
    requires QuotaReadable(h) && !WindowExhausted(h, nextUpload)
    ensures RateLimit(h - {RESET, LAST_RESET}, nextUpload, now) == Success(Proceed)
  {
    var gone := {RESET, LAST_RESET};
    NamesDistinct();
    ReadAfterRemoval(h, gone, BYTE_MAX);
    ReadAfterRemoval(h, gone, SENT_BYTES);
    ReadAfterRemoval(h, gone, MAX);
    ReadAfterRemoval(h, gone, REQUEST_COUNT);
    ProceedsOnSameQuota(h, h - gone, nextUpload, now);
  }

  /** Headers that read the same quota values as headers that do not throttle do not
      throttle either. */
  lemma ProceedsOnSameQuota(h: Headers, h': Headers, nextUpload: nat, now: nat)
    requires QuotaReadable(h) && !WindowExhausted(h, nextUpload)
    requires HeaderValue(h', BYTE_MAX) == HeaderValue(h, BYTE_MAX)
    requires HeaderValue(h', SENT_BYTES) == HeaderValue(h, SENT_BYTES)
    requires HeaderValue(h', MAX) == HeaderValue(h, MAX)
    requires HeaderValue(h', REQUEST_COUNT) == HeaderValue(h, REQUEST_COUNT)
    ensures RateLimit(h', nextUpload, now) == Success(Proceed)
  {
    assert QuotaReadable(h') && !WindowExhausted(h', nextUpload);
  }

  /** The six header names are pairwise distinct. */
  lemma NamesDistinct()
    ensures BYTE_MAX != SENT_BYTES && BYTE_MAX != MAX && BYTE_MAX != REQUEST_COUNT
    ensures BYTE_MAX != RESET && BYTE_MAX != LAST_RESET
    ensures SENT_BYTES != MAX && SENT_BYTES != REQUEST_COUNT && SENT_BYTES != RESET && SENT_BYTES != LAST_RESET
    ensures MAX != REQUEST_COUNT && MAX != RESET && MAX != LAST_RESET
    ensures REQUEST_COUNT != RESET && REQUEST_COUNT != LAST_RESET
    ensures RESET != LAST_RESET
  {
    assert |BYTE_MAX| == 20 && |SENT_BYTES| == 22 && |MAX| == 15;
    assert |REQUEST_COUNT| == 25 && |RESET| == 17 && |LAST_RESET| == 22;
    assert SENT_BYTES[12] != LAST_RESET[12];
  }

  /** Removing other headers does not change how a header reads. */
  lemma ReadAfterRemoval(h: Headers, gone: set<string>, name: string)
    requires name !in gone
    ensures HeaderValue(h - gone, name) == HeaderValue(h, name)
  {
    assert name in h - gone <==> name in h;
    if name in h {
      assert (h - gone)[name] == h[name];
    }
  }

  /** The first quota header that cannot be read is the one reported, even when later
      ones are broken too. */
  lemma QuotaErrorIsFirstInReadOrder(h: Headers, nextUpload: nat, now: nat)
    requires !QuotaReadable(h)
    ensures RateLimit(h, nextUpload, now).Failure?
    ensures !Readable(h, BYTE_MAX) ==> RateLimit(h, nextUpload, now).error == HeaderValue(h, BYTE_MAX).error
    ensures Readable(h, BYTE_MAX) && !Readable(h, SENT_BYTES) ==>
              RateLimit(h, nextUpload, now).error == HeaderValue(h, SENT_BYTES).error
    ensures Readable(h, BYTE_MAX) && Readable(h, SENT_BYTES) && !Readable(h, MAX) ==>
              RateLimit(h, nextUpload, now).error == HeaderValue(h, MAX).error
    ensures Readable(h, BYTE_MAX) && Readable(h, SENT_BYTES) && Readable(h, MAX) ==>
              RateLimit(h, nextUpload, now).error == HeaderValue(h, REQUEST_COUNT).error
  {
    QuotaFirstFailure(h);
  }

  /** Headers of the worked example below: byte max 1000, `sent` bytes sent, 3 of 10
      requests made, a window of 5000 ms that began at the time written `last`. */
  function ExampleHeaders(sent: string, last: string): Headers {
    map[BYTE_MAX := "1000", SENT_BYTES := sent, MAX := "10", REQUEST_COUNT := "3",
        RESET := "5000", LAST_RESET := last]
  }

  /** The values of the example's headers, by name. */
  lemma ExampleHeadersHold(sent: string, last: string)
    ensures var h := ExampleHeaders(sent, last);
      && BYTE_MAX in h && h[BYTE_MAX] == "1000" && SENT_BYTES in h && h[SENT_BYTES] == sent
      && MAX in h && h[MAX] == "10" && REQUEST_COUNT in h && h[REQUEST_COUNT] == "3"
      && RESET in h && h[RESET] == "5000" && LAST_RESET in h && h[LAST_RESET] == last
  {
    NamesDistinct();
  }

  lemma ExampleReads(sent: string, sentBytes: nat, last: string, t: nat)
    requires ParseU64(sent) == Some(sentBytes) && ParseU64(last) == Some(t)
    ensures QuotaReadable(ExampleHeaders(sent, last)) && WindowReadable(ExampleHeaders(sent, last))
    ensures HeaderValue(ExampleHeaders(sent, last), BYTE_MAX).value == 1000
    ensures HeaderValue(ExampleHeaders(sent, last), SENT_BYTES).value == sentBytes
    ensures HeaderValue(ExampleHeaders(sent, last), MAX).value == 10
    ensures HeaderValue(ExampleHeaders(sent, last), REQUEST_COUNT).value == 3
    ensures HeaderValue(ExampleHeaders(sent, last), RESET).value == 5000
    ensures HeaderValue(ExampleHeaders(sent, last), LAST_RESET).value == t
  {
    var h := ExampleHeaders(sent, last);
    LiteralsParse();
    ExampleHeadersHold(sent, last);
    HeaderValueReads(h, BYTE_MAX);
    HeaderValueReads(h, SENT_BYTES);
    HeaderValueReads(h, MAX);
    HeaderValueReads(h, REQUEST_COUNT);
    HeaderValueReads(h, RESET);
    HeaderValueReads(h, LAST_RESET);
  }

  /** The worked example: with 900 bytes already sent a 200-byte part passes the byte
      quota, so the call sleeps until the window start `t` plus 5000 ms. */
  lemma ThrottleExampleSleeps(last: string, t: nat, now: nat)
    requires ParseU64(last) == Some(t) && now <= t + 5000
    ensures RateLimit(ExampleHeaders("900", last), 200, now).Success?
    ensures RateLimit(ExampleHeaders("900", last), 200, now).value == Sleep(t + 5000 - now)
  {
    LiteralsParse();
    ExampleReads("900", 900, last, t);
    SleepsIffExhausted(ExampleHeaders("900", last), 200, now);
  }

  /** The worked example with only 100 bytes sent: the part fits and the call proceeds
      at once. */
  lemma ThrottleExampleProceeds(last: string, t: nat, now: nat)
    requires ParseU64(last) == Some(t)
    ensures RateLimit(ExampleHeaders("100", last), 200, now) == Success(Proceed)
  {
    LiteralsParse();
    ExampleReads("100", 100, last, t);
  }

  lemma LiteralsParse()
    ensures ParseU64("1000") == Some(1000) && ParseU64("900") == Some(900)
    ensures ParseU64("100") == Some(100) && ParseU64("10") == Some(10)
    ensures ParseU64("3") == Some(3) && ParseU64("5000") == Some(5000)
  {
    assert "1000"[..3] == "100";
    assert "100"[..2] == "10";
    assert "10"[..1] == "1";
    assert DigitsValue("100") == 100;
    assert "5000"[..3] == "500";
    assert "500"[..2] == "50";
    assert "50"[..1] == "5";
    assert DigitsValue("500") == 500;
    assert "900"[..2] == "90";
    assert "90"[..1] == "9";
    assert "3"[..0] == "";
  }
}

=== FILE: reassembler.dfy ===
/** The `download` subcommand: fetch the manifest, decode it, open the destination
    named in it, then fetch every part in manifest order and write it. */
module Reassembler {
  import opened Wrappers
  import opened Buffers
  import opened Manifest
  import opened Destination

  /** The object service as the download sees it: an object fetched by id as text or as
      raw bytes, absent when the request fails. */
  datatype Store = Store(text: string -> Option<string>, bytes: string -> Option<Bytes>)

  /** The local file system: the current bytes of the file with a given name (empty when
      it does not exist yet), absent when it cannot be opened or created. */
  type Disk = string -> Option<Bytes>

  datatype DownloadError =
    | ManifestFetchFailed
    | ManifestMalformed
    | CannotCreate(name: string)
    | PartFetchFailed(id: string, written: Bytes)

  /** The recovered file name, the part ids read from the manifest, and the bytes the
      destination holds afterwards. */
  datatype Downloaded = Downloaded(name: string, ids: seq<string>, contents: Bytes)

  /** Every id can be fetched. */
  predicate Fetchable(fetch: string -> Option<Bytes>, ids: seq<string>) {
    forall i :: 0 <= i < |ids| ==> fetch(ids[i]).Some?
  }

  /** The fetched payloads, in the order of the ids. */
  function Payloads(fetch: string -> Option<Bytes>, ids: seq<string>): (ps: seq<Bytes>)
    requires Fetchable(fetch, ids)
    ensures |ps| == |ids|
    ensures forall i :: 0 <= i < |ids| ==> ps[i] == fetch(ids[i]).value
  {
    if |ids| == 0 then [] else [fetch(ids[0]).value] + Payloads(fetch, ids[1..])
  }

  /** Position of the first id that cannot be fetched (`|ids|` when all can). */
  function FirstMissing(fetch: string -> Option<Bytes>, ids: seq<string>): (k: nat)
    ensures k <= |ids|
    ensures Fetchable(fetch, ids[..k])
    ensures k < |ids| ==> fetch(ids[k]).None?
    ensures k < |ids| <==> !Fetchable(fetch, ids)
  {
    if |ids| == 0 || fetch(ids[0]).None? then 0
    else
      var k := 1 + FirstMissing(fetch, ids[1..]);
      assert forall i :: 1 <= i < k ==> ids[..k][i] == ids[1..][..k - 1][i - 1];
      k
  }

  /** The download loop: fetch each id in turn and write its bytes, stopping at the
      first id that cannot be fetched. */
  function WriteParts(fetch: string -> Option<Bytes>, ids: seq<string>, f: Handle): (r: Result<Handle, DownloadError>)
    requires f.Valid()
    ensures r.Success? ==> r.value.Valid()
    ensures r.Failure? ==> r.error.PartFetchFailed?
  {
    if |ids| == 0 then Success(f)
    else match fetch(ids[0])
      case None => Failure(PartFetchFailed(ids[0], f.contents))
      case Some(part) => WriteParts(fetch, ids[1..], WriteAll(f, part))
  }

  /** The loop succeeds exactly when every id can be fetched, and then has written the
      payloads concatenated in manifest order. Otherwise it reports the first id that
      cannot be fetched, with the destination holding the payloads before it. */
  lemma {:induction false} WritePartsInOrder(fetch: string -> Option<Bytes>, ids: seq<string>, f: Handle)
    requires f.Valid()
    ensures WriteParts(fetch, ids, f).Success? <==> Fetchable(fetch, ids)
    ensures Fetchable(fetch, ids) ==> WriteParts(fetch, ids, f).value == WriteAll(f, Concat(Payloads(fetch, ids)))
    ensures !Fetchable(fetch, ids) ==>
      var k := FirstMissing(fetch, ids);
      k < |ids| && WriteParts(fetch, ids, f)
        == Failure(PartFetchFailed(ids[k], WriteAll(f, Concat(Payloads(fetch, ids[..k]))).contents))
    decreases |ids|
  {
    if |ids| == 0 {
      assert Concat<byte>([]) == [];
      WriteAllNothing(f);
    } else if fetch(ids[0]).None? {
      assert ids[..0] == [];
      assert Concat<byte>([]) == [];
      WriteAllNothing(f);
    } else {
      var part := fetch(ids[0]).value;
      var rest := ids[1..];
      var g := WriteAll(f, part);
      WritePartsInOrder(fetch, rest, g);
      assert Fetchable(fetch, ids) <==> Fetchable(fetch, rest) by {
        assert forall i :: 1 <= i < |ids| ==> ids[i] == rest[i - 1];
      }
      if Fetchable(fetch, ids) {
        WriteFirstThenRest(fetch, ids, f);
      } else {
        var k := FirstMissing(fetch, rest);
        assert FirstMissing(fetch, ids) == k + 1;
        WriteFirstThenPrefix(fetch, ids, f, k);
      }
    }
  }

  /** `WriteFirstThenRest` for the ids up to and including position `k + 1`. */
  lemma WriteFirstThenPrefix(fetch: string -> Option<Bytes>, ids: seq<string>, f: Handle, k: nat)
    requires f.Valid() && k < |ids| && fetch(ids[0]).Some? && Fetchable(fetch, ids[1..][..k])
    ensures Fetchable(fetch, ids[..k + 1])
    ensures WriteAll(WriteAll(f, fetch(ids[0]).value), Concat(Payloads(fetch, ids[1..][..k])))
         == WriteAll(f, Concat(Payloads(fetch, ids[..k + 1])))
  {
    var prefix := ids[..k + 1];
    assert prefix[1..] == ids[1..][..k];
    assert forall i :: 1 <= i < |prefix| ==> prefix[i] == ids[1..][..k][i - 1];
    WriteFirstThenRest(fetch, prefix, f);
  }

  /** Writing the first payload and then the concatenation of the others writes the
      concatenation of all of them. */
  lemma WriteFirstThenRest(fetch: string -> Option<Bytes>, ids: seq<string>, f: Handle)
    requires f.Valid() && |ids| > 0 && Fetchable(fetch, ids)
    ensures WriteAll(WriteAll(f, fetch(ids[0]).value), Concat(Payloads(fetch, ids[1..])))
         == WriteAll(f, Concat(Payloads(fetch, ids)))
  {
    var part := fetch(ids[0]).value;
    assert Payloads(fetch, ids) == [part] + Payloads(fetch, ids[1..]);
    ConcatCons(part, Payloads(fetch, ids[1..]));
    WriteAllTwice(f, part, Concat(Payloads(fetch, ids[1..])));
  }

  /** Writing nothing leaves the file as it is. */
  lemma WriteAllNothing(f: Handle)
    requires f.Valid()
    ensures WriteAll(f, []) == f
  {
    assert f.contents[..f.cursor] + [] + f.contents[f.cursor..] == f.contents;
  }

  /** The download, with the destination opened truncating (`truncate`) or not. */
  function DownloadWith(store: Store, metaId: string, disk: Disk, truncate: bool): (r: Result<Downloaded, DownloadError>)
  {
    var text :- store.text(metaId).ToResult(ManifestFetchFailed);
    var manifest :- Decode(text).ToResult(ManifestMalformed);
    var prior :- disk(manifest.name).ToResult(CannotCreate(manifest.name));
    var f :- WriteParts(store.bytes, manifest.ids, Open(prior, truncate));
    Success(Downloaded(manifest.name, manifest.ids, f.contents))
  }

  /** The download as written: the destination is opened with `create` and `write`
      but without `truncate`. It fails on the manifest exactly when the manifest cannot
      be fetched, and never reports it malformed. */
  function DownloadAsWritten(store: Store, metaId: string, disk: Disk): (r: Result<Downloaded, DownloadError>)
    ensures r == Failure(ManifestFetchFailed) <==> store.text(metaId).None?
    ensures r != Failure(ManifestMalformed)
  {
    DownloadWith(store, metaId, disk, false)
  }

  /** The download with the destination truncated on open: a manifest that cannot be
      fetched fails it, and the manifest is never reported malformed. */
  function Download(store: Store, metaId: string, disk: Disk): (r: Result<Downloaded, DownloadError>)
    ensures r == Failure(ManifestFetchFailed) <==> store.text(metaId).None?
    ensures r != Failure(ManifestMalformed)
  {
    DownloadWith(store, metaId, disk, true)
  }

  /** On success the file named by the manifest holds exactly the fetched payloads of
      its ids, concatenated in manifest order; the download fails on a part exactly when
      some id of the manifest cannot be fetched, and then names the first such id. */
  lemma DownloadReassembles(store: Store, metaId: string, disk: Disk)
    requires store.text(metaId).Some?
    requires disk(Decode(store.text(metaId).value).value.name).Some?
    ensures var m := Decode(store.text(metaId).value).value;
      var r := Download(store, metaId, disk);
      && (r.Success? <==> Fetchable(store.bytes, m.ids))
      && (r.Success? ==> r.value == Downloaded(m.name, m.ids, Concat(Payloads(store.bytes, m.ids))))
      && (r.Failure? ==> r.error.PartFetchFailed? && r.error.id == m.ids[FirstMissing(store.bytes, m.ids)])
  {
    var m := Decode(store.text(metaId).value).value;
    var prior := disk(m.name).value;
    WritePartsInOrder(store.bytes, m.ids, Open(prior, true));
    if Fetchable(store.bytes, m.ids) {
      TruncatedOpenHoldsExactly(prior, Concat(Payloads(store.bytes, m.ids)));
    }
  }

  /** Either way of opening: once the manifest is fetched, the destination must open,
      and then the download succeeds exactly when every part can be fetched, leaving
      the payloads written in manifest order over the opened file; otherwise it names
      the first id that cannot be fetched. */
  lemma DownloadWithReassembles(store: Store, metaId: string, disk: Disk, truncate: bool)
    requires store.text(metaId).Some?
    ensures var m := Decode(store.text(metaId).value).value;
      var r := DownloadWith(store, metaId, disk, truncate);
      && (disk(m.name).None? <==> r == Failure(CannotCreate(m.name)))
      && (disk(m.name).Some? ==>
           && (r.Success? <==> Fetchable(store.bytes, m.ids))
           && (r.Success? ==> r.value == Downloaded(m.name, m.ids,
                 WriteAll(Open(disk(m.name).value, truncate), Concat(Payloads(store.bytes, m.ids))).contents))
           && (r.Failure? ==> r.error.PartFetchFailed? && r.error.id == m.ids[FirstMissing(store.bytes, m.ids)]))
  {
    var m := Decode(store.text(metaId).value).value;
    if disk(m.name).Some? {
      WritePartsInOrder(store.bytes, m.ids, Open(disk(m.name).value, truncate));
    }
  }

  /** The source's download: once the manifest is fetched and the destination opens,
      it succeeds exactly when every part can be fetched, and the file then holds the
      payloads in manifest order followed by whatever the old file held beyond them;
      otherwise it names the first id that cannot be fetched. */
  lemma DownloadAsWrittenReassembles(store: Store, metaId: string, disk: Disk)
    requires store.text(metaId).Some?
    ensures var m := Decode(store.text(metaId).value).value;
      var r := DownloadWith(store, metaId, disk, false);
      && DownloadAsWritten(store, metaId, disk) == r
      && (disk(m.name).None? <==> r == Failure(CannotCreate(m.name)))
      && (disk(m.name).Some? ==>
           var prior := disk(m.name).value;
           && (r.Success? <==> Fetchable(store.bytes, m.ids))
           && (r.Success? ==>
                 var data := Concat(Payloads(store.bytes, m.ids));
                 r.value == Downloaded(m.name, m.ids, if |data| < |prior| then data + prior[|data|..] else data))
           && (r.Failure? ==> r.error.PartFetchFailed? && r.error.id == m.ids[FirstMissing(store.bytes, m.ids)]))
  {
    var m := Decode(store.text(metaId).value).value;
    DownloadWithReassembles(store, metaId, disk, false);
    if disk(m.name).Some? && Fetchable(store.bytes, m.ids) {
      UntruncatedOpenKeepsTail(disk(m.name).value, Concat(Payloads(store.bytes, m.ids)));
    }
  }

  /** The source's download leaves the stale tail of a longer existing destination:
      where the truncating download writes `c`, the source's leaves `c` followed by the
      old file's bytes beyond `|c|`. */
  lemma DownloadAsWrittenKeepsStaleTail(store: Store, metaId: string, disk: Disk)
    requires Download(store, metaId, disk).Success?
    ensures var d := Download(store, metaId, disk).value;
      var prior := disk(d.name).value;
      DownloadAsWritten(store, metaId, disk)
        == Success(d.(contents := if |d.contents| < |prior| then d.contents + prior[|d.contents|..] else d.contents))
  {
    var m := Decode(store.text(metaId).value).value;
    var prior := disk(m.name).value;
    DownloadReassembles(store, metaId, disk);
    var data := Concat(Payloads(store.bytes, m.ids));
    WritePartsInOrder(store.bytes, m.ids, Open(prior, false));
    UntruncatedOpenKeepsTail(prior, data);
  }
}

=== FILE: splitter.dfy ===
/** Cutting a file into parts of at most the instance's attachment size. The
    upload loop drains the front of the buffer once per part; here the part
    boundaries are described by an explicit cursor into the unchanged file. */
module Splitter {
  import opened Buffers
  import opened Decimal

  /** `min(remaining, ceiling)`: how many bytes the next drain takes. */
  function Take(remaining: nat, ceiling: nat): (t: nat)
    ensures t <= remaining && t <= ceiling
    ensures t == remaining || t == ceiling
  {
    if remaining < ceiling then remaining else ceiling
  }

  /** Number of loop iterations of the upload: the ceiling of `n / ceiling`. With a
      zero ceiling the `f64` quotient is infinite for a non-empty file, which the cast
      to `u64` saturates, and NaN for an empty one, which the cast turns into 0. */
  function PartCount(n: nat, ceiling: nat): (count: nat)
    ensures ceiling == 0 ==> count == if n == 0 then 0 else U64_MODULUS - 1
    ensures ceiling > 0 ==> (count - 1) * ceiling < n <= count * ceiling
  {
    if ceiling == 0 then (if n == 0 then 0 else U64_MODULUS - 1)
    else
      var q := (n + ceiling - 1) / ceiling;
      DivRel(n + ceiling - 1, ceiling);
      MulDist(q, 1, ceiling);
      q
  }

  /** With a zero ceiling every part is empty: the drain `min(len, 0)` takes nothing. */
  lemma ZeroCeilingPartEmpty(file: Bytes, k: nat)
    ensures PartAt(file, 0, k) == []
  {
    PartSize(file, 0, k);
  }

  /** Cursor into the file after `k` parts have been drained: each drain moves it by
      `min(remaining, ceiling)`. */
  function Offset(n: nat, ceiling: nat, k: nat): (o: nat)
    ensures o <= n
    decreases k
  {
    if k == 0 then 0
    else
      var before := Offset(n, ceiling, k - 1);
      before + Take(n - before, ceiling)
  }

  /** The cursor after `k` drains is `k * ceiling`, or the end of the file once that
      passes it. */
  lemma {:induction false} OffsetClosedForm(n: nat, ceiling: nat, k: nat)
    ensures Offset(n, ceiling, k) == if k * ceiling < n then k * ceiling else n
    decreases k
  {
    if k > 0 {
      OffsetClosedForm(n, ceiling, k - 1);
      MulDist(k, 1, ceiling);
    }
  }

  /** Draining the front part first moves the cursor of every later drain by its size. */
  lemma {:induction false} OffsetShift(n: nat, ceiling: nat, k: nat)
    ensures Offset(n - Take(n, ceiling), ceiling, k) + Take(n, ceiling) == Offset(n, ceiling, k + 1)
    decreases k
  {
    if k > 0 {
      OffsetShift(n, ceiling, k - 1);
    }
  }

  /** The `k`-th part (from 0): the bytes between the cursor before and after it. */
  function PartAt(file: Bytes, ceiling: nat, k: nat): Bytes
  {
    file[Offset(|file|, ceiling, k)..Offset(|file|, ceiling, k + 1)]
  }

  /** The `k`-th part is a full `ceiling` while the file reaches past it, then the
      remainder, then empty. */
  lemma PartSize(file: Bytes, ceiling: nat, k: nat)
    ensures |PartAt(file, ceiling, k)|
              == if (k + 1) * ceiling <= |file| then ceiling
                 else if k * ceiling < |file| then |file| - k * ceiling
                 else 0
  {
    OffsetClosedForm(|file|, ceiling, k);
    OffsetClosedForm(|file|, ceiling, k + 1);
    MulDist(k, 1, ceiling);
  }

  /** One drain of the loop: the front `min(len, ceiling)` bytes and what is left. */
  function Cut(buf: Bytes, ceiling: nat): (r: (Bytes, Bytes))
    ensures r.0 + r.1 == buf
    ensures |r.0| == Take(|buf|, ceiling)
  {
    var t := Take(|buf|, ceiling);
    (buf[..t], buf[t..])
  }

  /** The first `count` parts, in index order. */
  function Parts(file: Bytes, ceiling: nat, count: nat): (parts: seq<Bytes>)
    ensures |parts| == count
    ensures forall k {:trigger parts[k]} :: 0 <= k < count ==> parts[k] == PartAt(file, ceiling, k)
  {
    if count == 0 then [] else Parts(file, ceiling, count - 1) + [PartAt(file, ceiling, count - 1)]
  }

  /** Draining the front part leaves a buffer whose parts are the later parts of the
      original: the cursor model and the draining loop cut at the same places. */
  lemma DrainShiftsParts(buf: Bytes, ceiling: nat, k: nat)
    ensures PartAt(Cut(buf, ceiling).1, ceiling, k) == PartAt(buf, ceiling, k + 1)
    ensures PartAt(buf, ceiling, 0) == Cut(buf, ceiling).0
  {
    FirstPartIsCut(buf, ceiling);
    DrainedPart(buf, ceiling, k, Take(|buf|, ceiling), Cut(buf, ceiling).1);
  }

  /** Part `k` of what is left after the first drain of `t` bytes is part `k + 1` of the
      whole buffer. */
  lemma DrainedPart(buf: Bytes, ceiling: nat, k: nat, t: nat, rest: Bytes)
    requires t == Take(|buf|, ceiling) && rest == buf[t..]
    ensures PartAt(rest, ceiling, k) == PartAt(buf, ceiling, k + 1)
  {
    var a := Offset(|rest|, ceiling, k);
    var b := Offset(|rest|, ceiling, k + 1);
    CursorsShift(|buf|, ceiling, k, t, a, b, Offset(|buf|, ceiling, k + 1), Offset(|buf|, ceiling, k + 1 + 1));
    SliceOfSuffix(buf, t, a, b);
  }

  /** `DrainShiftsParts` with the index `k = j + 1` of the part in the whole buffer
      named. */
  lemma DrainShiftsTo(buf: Bytes, ceiling: nat, j: nat, k: nat)
    requires k == j + 1
    ensures PartAt(Cut(buf, ceiling).1, ceiling, j) == PartAt(buf, ceiling, k)
  {
    DrainShiftsParts(buf, ceiling, j);
  }

  /** The first part is the front that the first drain takes. */
  lemma FirstPartIsCut(buf: Bytes, ceiling: nat)
    ensures PartAt(buf, ceiling, 0) == Cut(buf, ceiling).0
    ensures Cut(buf, ceiling).1 == buf[Take(|buf|, ceiling)..]
  {
    assert Offset(|buf|, ceiling, 1) == Take(|buf|, ceiling);
  }

  /** `OffsetShift` for two consecutive cursors, with the cursors named. */
  lemma CursorsShift(n: nat, ceiling: nat, k: nat, t: nat, a: nat, b: nat, a': nat, b': nat)
    requires t == Take(n, ceiling)
    requires a == Offset(n - t, ceiling, k) && b == Offset(n - t, ceiling, k + 1)
    requires a' == Offset(n, ceiling, k + 1) && b' == Offset(n, ceiling, k + 1 + 1)
    ensures t + a == a' && t + b == b'
  {
    OffsetShift(n, ceiling, k);
    OffsetShift(n, ceiling, k + 1);
  }

  /** A slice of a suffix is a slice of the whole, shifted. */
  lemma SliceOfSuffix(s: Bytes, t: nat, a: nat, b: nat)
    requires t <= |s| && a <= b <= |s| - t
    ensures s[t..][a..b] == s[t + a..t + b]
  {
  }

  /** Each drain passes the limiter the size of the part that follows, and 0 after the
      last one: the size of the next pending part is never misreported. */
  lemma NextSizeIsNextPart(file: Bytes, ceiling: nat, k: nat)
    ensures Take(|file| - Offset(|file|, ceiling, k + 1), ceiling) == |PartAt(file, ceiling, k + 1)|
  {
  }

  /** The first `count` parts put back together give the file up to the cursor. */
  lemma {:induction false} PartsConcat(file: Bytes, ceiling: nat, count: nat)
    ensures Concat(Parts(file, ceiling, count)) == file[..Offset(|file|, ceiling, count)]
  {
    if count > 0 {
      var prev := Parts(file, ceiling, count - 1);
      var last := PartAt(file, ceiling, count - 1);
      assert Parts(file, ceiling, count) == prev + [last];
      PartsConcat(file, ceiling, count - 1);
      ConcatSnoc(prev, last);
      PartBetween(file, ceiling, count - 1, count);
      PrefixThenSlice(file, Offset(|file|, ceiling, count - 1), Offset(|file|, ceiling, count), last);
    }
  }

  /** Part `j` lies between the cursors `j` and `k = j + 1`. */
  lemma PartBetween(file: Bytes, ceiling: nat, j: nat, k: nat)
    requires k == j + 1
    ensures Offset(|file|, ceiling, j) <= Offset(|file|, ceiling, k)
    ensures PartAt(file, ceiling, j) == file[Offset(|file|, ceiling, j)..Offset(|file|, ceiling, k)]
  {
  }

  /** The prefix up to `a` followed by the slice from `a` to `b` is the prefix up to `b`. */
  lemma PrefixThenSlice(s: Bytes, a: nat, b: nat, slice: Bytes)
    requires a <= b <= |s| && slice == s[a..b]
    ensures s[..a] + slice == s[..b]
  {
  }

  /** For a positive ceiling smaller than the file, the upload loop produces at least
      two parts; all but the last have exactly `ceiling` bytes, the last has between 1
      and `ceiling` bytes (`n mod ceiling`, or `ceiling` when that is 0), and together,
      in index order, they are exactly the file with nothing left in the buffer. */
  lemma SplitIsExact(file: Bytes, ceiling: nat)
    requires 0 < ceiling < |file|
    ensures PartCount(|file|, ceiling) >= 2
    ensures Offset(|file|, ceiling, PartCount(|file|, ceiling)) == |file|
    ensures Concat(Parts(file, ceiling, PartCount(|file|, ceiling))) == file
    ensures forall k :: 0 <= k < PartCount(|file|, ceiling) - 1 ==> |PartAt(file, ceiling, k)| == ceiling
    ensures 1 <= |PartAt(file, ceiling, PartCount(|file|, ceiling) - 1)| <= ceiling
    ensures |PartAt(file, ceiling, PartCount(|file|, ceiling) - 1)|
              == if |file| % ceiling == 0 then ceiling else |file| % ceiling
  {
    var n := |file|;
    var count := PartCount(n, ceiling);
    AtLeastTwoParts(n, ceiling);
    OffsetClosedForm(n, ceiling, count);
    PartsConcat(file, ceiling, count);
    FullParts(file, ceiling);
    LastPart(file, ceiling);
  }

  lemma AtLeastTwoParts(n: nat, ceiling: nat)
    requires 0 < ceiling < n
    ensures PartCount(n, ceiling) >= 2
  {
    MulDist(PartCount(n, ceiling), 1, ceiling);
    MulPositive(PartCount(n, ceiling) - 1, ceiling);
  }

  lemma FullParts(file: Bytes, ceiling: nat)
    requires 0 < ceiling
    ensures forall k :: 0 <= k < PartCount(|file|, ceiling) - 1 ==> |PartAt(file, ceiling, k)| == ceiling
  {
    var n := |file|;
    var count := PartCount(n, ceiling);
    forall k: nat | k + 1 < count
      ensures |PartAt(file, ceiling, k)| == ceiling
    {
      OffsetClosedForm(n, ceiling, k);
      OffsetClosedForm(n, ceiling, k + 1);
      MulMono(k + 1, count - 1, ceiling);
      MulDist(k + 1, 1, ceiling);
    }
  }

  lemma LastPart(file: Bytes, ceiling: nat)
    requires 0 < ceiling < |file|
    ensures PartCount(|file|, ceiling) >= 1
    ensures |PartAt(file, ceiling, PartCount(|file|, ceiling) - 1)|
              == if |file| % ceiling == 0 then ceiling else |file| % ceiling
  {
    var n := |file|;
    var count := PartCount(n, ceiling);
    AtLeastTwoParts(n, ceiling);
    OffsetClosedForm(n, ceiling, count);
    OffsetClosedForm(n, ceiling, count - 1);
    LastPartIsRemainder(n, ceiling, count);
  }

  /** The last part holds what the earlier full parts leave over. */
  lemma LastPartIsRemainder(n: nat, ceiling: nat, count: nat)
    requires 0 < ceiling && (count - 1) * ceiling < n <= count * ceiling
    ensures n - (count - 1) * ceiling == if n % ceiling == 0 then ceiling else n % ceiling
  {
    var q := n / ceiling;
    var r := n % ceiling;
    DivRel(n, ceiling);
    MulDist(count, q, ceiling);
    MulDist(count - 1, q, ceiling);
    MulDist(count, 1, ceiling);
    if r == 0 {
      MulNonNeg(count - q, ceiling);
      MulBelow(count - q, ceiling);
    } else {
      MulPositive(count - q, ceiling);
      MulBelow(count - 1 - q, ceiling);
    }
  }

  lemma MulDist(a: int, b: int, c: int)
    ensures (a - b) * c == a * c - b * c
  {}

  lemma MulMono(a: int, b: int, c: nat)
    requires a <= b
    ensures a * c <= b * c
  {}

  lemma MulPositive(a: int, c: int)
    requires c > 0 && a * c > 0
    ensures a > 0
  {}

  lemma MulNonNeg(a: int, c: int)
    requires c > 0 && a * c >= 0
    ensures a >= 0
  {}

  lemma MulBelow(a: int, c: int)
    requires c > 0 && a * c < c
    ensures a < 1
  {}

  lemma DivRel(x: nat, c: nat)
    requires c > 0
    ensures x == (x / c) * c + x % c && 0 <= x % c < c
  {}
}

=== FILE: uploader.dfy ===
/** The `upload` subcommand: refuse a file that already fits in one attachment, cut the
    rest into parts, post each part and throttle after it, then post the manifest. */
module Uploader {
  import opened Wrappers
  import opened Buffers
  import opened Decimal
  import opened Splitter
  import opened Manifest
  import opened RateLimiter

  /** What the object service answers to a part upload: its rate-limit headers and the
      id from the JSON body, absent when the body does not decode. */
  datatype Response = Response(headers: Headers, id: Option<string>)

  /** The network and the clock. `postPart` sends a binary part under a file name and
      fails when the request does; `postManifest` sends the manifest text and yields the
      id it was stored under; `clock(i)` is the time in epoch milliseconds at which the
      limiter runs after part `i`. */
  datatype Service = Service(
    postPart: (string, Bytes) -> Option<Response>,
    postManifest: (string, string) -> Option<string>,
    clock: nat -> nat)

  datatype UploadError =
    | FileTooSmall
    | PartUploadFailed(index: nat)
    | RateLimitFailed(index: nat, cause: HeaderError)
    | PartResponseMalformed(index: nat)
    | ManifestUploadFailed
  {
    /** The error arose while handling one part. */
    predicate AtPart() {
      PartUploadFailed? || RateLimitFailed? || PartResponseMalformed?
    }
  }

  /** The record of the part uploads, index by index: the bytes sent, the id returned,
      the next-part size given to the limiter and the limiter's decision. */
  datatype PartsSent = PartsSent(parts: seq<Bytes>, ids: seq<string>, nextSizes: seq<nat>, pauses: seq<Decision>)
  {
    predicate WellFormed() {
      |parts| == |ids| == |nextSizes| == |pauses|
    }
  }

  datatype Uploaded = Uploaded(metaId: string, manifest: string, sent: PartsSent)

  /** `"{name}-{index}"`, the file name a part is posted under. */
  function PartName(name: string, index: nat): string {
    name + "-" + NatToDecimal(index)
  }

  /** `"{name}-meta"`, the file name the manifest is posted under. */
  function MetaName(name: string): string {
    name + "-meta"
  }

  /** One iteration of the upload loop for part `index`: post it, throttle on the
      response's headers with the size of the next part, then read the id. */
  function PartStep(svc: Service, name: string, index: nat, part: Bytes, nextSize: nat)
    : (r: Result<(string, Decision), UploadError>)
    ensures r.Failure? ==> r.error.AtPart() && r.error.index == index
    ensures r == Failure(PartUploadFailed(index)) <==> svc.postPart(PartName(name, index), part).None?
    ensures svc.postPart(PartName(name, index), part).Some? ==>
      var response := svc.postPart(PartName(name, index), part).value;
      && (RateLimit(response.headers, nextSize, svc.clock(index)).Failure? ==>
            r == Failure(RateLimitFailed(index, RateLimit(response.headers, nextSize, svc.clock(index)).error)))
      && (RateLimit(response.headers, nextSize, svc.clock(index)).Success? && response.id.None? ==>
            r == Failure(PartResponseMalformed(index)))
    ensures r.Success? ==>
      && svc.postPart(PartName(name, index), part).Some?
      && RateLimit(svc.postPart(PartName(name, index), part).value.headers, nextSize, svc.clock(index))
           == Success(r.value.1)
      && svc.postPart(PartName(name, index), part).value.id == Some(r.value.0)
    ensures svc.postPart(PartName(name, index), part).Some?
            && RateLimit(svc.postPart(PartName(name, index), part).value.headers, nextSize, svc.clock(index)).Success?
            && svc.postPart(PartName(name, index), part).value.id.Some?
            ==> r.Success?
  {
    match svc.postPart(PartName(name, index), part)
    case None => Failure(PartUploadFailed(index))
    case Some(response) =>
      match RateLimit(response.headers, nextSize, svc.clock(index))
      case Failure(e) => Failure(RateLimitFailed(index, e))
      case Success(pause) =>
        match response.id
        case None => Failure(PartResponseMalformed(index))
        case Some(id) => Success((id, pause))
  }

  /** The effect of one loop iteration: given the part's index, its bytes and the size
      of the part after it, either the id and the limiter's decision or the error. */
  type Step = (nat, Bytes, nat) -> Result<(string, Decision), UploadError>

  /** The iteration of the upload loop for a given service and file name. */
  function StepOf(svc: Service, name: string): Step {
    (index: nat, part: Bytes, nextSize: nat) => PartStep(svc, name, index, part, nextSize)
  }

  /** The loop from part `index` on, with `remaining` iterations left, draining `buf`:
      each iteration cuts the front part, runs `step` on it, and stops at the first
      failure. */
  function UploadParts(step: Step, buf: Bytes, ceiling: nat, index: nat, remaining: nat)
    : (r: Result<PartsSent, UploadError>)
    decreases remaining
    ensures r.Success? ==> r.value.WellFormed() && |r.value.parts| == remaining
  {
    if remaining == 0 then Success(PartsSent([], [], [], []))
    else
      var part := Cut(buf, ceiling).0;
      var rest := Cut(buf, ceiling).1;
      var result :- step(index, part, Take(|rest|, ceiling));
      var tail :- UploadParts(step, rest, ceiling, index + 1, remaining - 1);
      Success(PartsSent([part] + tail.parts, [result.0] + tail.ids,
                        [Take(|rest|, ceiling)] + tail.nextSizes, [result.1] + tail.pauses))
  }

  /** The record `s` is what the loop from part `index` on does to `buf`: its parts are
      the parts of the cursor model in index order, each iteration was passed the size
      of the following part, and each recorded id and decision are those of the
      part's own iteration. */
  predicate Traced(step: Step, buf: Bytes, ceiling: nat, index: nat, s: PartsSent) {
    Cursored(buf, ceiling, s) && Stepped(step, index, s)
  }

  /** The parts of `s` are those of the cursor model over `buf`, and each next size is
      the size of the following part. */
  predicate Cursored(buf: Bytes, ceiling: nat, s: PartsSent) {
    && s.WellFormed()
    && forall k {:trigger s.parts[k]} {:trigger s.nextSizes[k]} :: 0 <= k < |s.parts| ==>
         && s.parts[k] == PartAt(buf, ceiling, k)
         && s.nextSizes[k] == |PartAt(buf, ceiling, k + 1)|
  }

  /** Each recorded id and decision of `s` are those of its part's iteration, numbered
      from `index`. */
  predicate Stepped(step: Step, index: nat, s: PartsSent) {
    && s.WellFormed()
    && forall k {:trigger s.parts[k]} :: 0 <= k < |s.parts| ==>
         step(index + k, s.parts[k], s.nextSizes[k]) == Success((s.ids[k], s.pauses[k]))
  }

  /** A successful loop is traced by its record. */
  lemma {:induction false} UploadPartsTrace(step: Step, buf: Bytes, ceiling: nat, index: nat, remaining: nat)
    requires UploadParts(step, buf, ceiling, index, remaining).Success?
    ensures Traced(step, buf, ceiling, index, UploadParts(step, buf, ceiling, index, remaining).value)
    decreases remaining
  {
    if remaining > 0 {
      var rest := Cut(buf, ceiling).1;
      var result := step(index, Cut(buf, ceiling).0, Take(|rest|, ceiling)).value;
      var tail := UploadParts(step, rest, ceiling, index + 1, remaining - 1).value;
      UploadPartsUnfold(step, buf, ceiling, index, remaining);
      UploadPartsTrace(step, rest, ceiling, index + 1, remaining - 1);
      CursoredCons(buf, ceiling, result, tail);
      SteppedCons(step, buf, ceiling, index, result, tail);
    }
  }

  /** A successful loop ran its first iteration successfully, then the rest of the
      loop successfully on the drained buffer, and recorded the first before the rest. */
  lemma UploadPartsUnfold(step: Step, buf: Bytes, ceiling: nat, index: nat, remaining: nat)
    requires remaining > 0 && UploadParts(step, buf, ceiling, index, remaining).Success?
    ensures step(index, Cut(buf, ceiling).0, Take(|Cut(buf, ceiling).1|, ceiling)).Success?
    ensures UploadParts(step, Cut(buf, ceiling).1, ceiling, index + 1, remaining - 1).Success?
    ensures UploadParts(step, buf, ceiling, index, remaining).value
         == Prefixed(buf, ceiling, step(index, Cut(buf, ceiling).0, Take(|Cut(buf, ceiling).1|, ceiling)).value,
                     UploadParts(step, Cut(buf, ceiling).1, ceiling, index + 1, remaining - 1).value)
  {
  }

  /** The record of the loop from its first iteration: that iteration's part, id, next
      size and decision, followed by the record of the rest of the loop. */
  function Prefixed(buf: Bytes, ceiling: nat, result: (string, Decision), tail: PartsSent): PartsSent {
    PartsSent([Cut(buf, ceiling).0] + tail.parts, [result.0] + tail.ids,
              [Take(|Cut(buf, ceiling).1|, ceiling)] + tail.nextSizes, [result.1] + tail.pauses)
  }

  /** Prefixing the first drain to a record that follows the cursor model over the
      drained buffer gives one that follows it over the whole buffer. */
  lemma CursoredCons(buf: Bytes, ceiling: nat, result: (string, Decision), tail: PartsSent)
    requires Cursored(Cut(buf, ceiling).1, ceiling, tail)
    ensures Cursored(buf, ceiling, Prefixed(buf, ceiling, result, tail))
  {
    var s := Prefixed(buf, ceiling, result, tail);
    forall k | 0 <= k < |s.parts|
      ensures s.parts[k] == PartAt(buf, ceiling, k)
      ensures s.nextSizes[k] == |PartAt(buf, ceiling, k + 1)|
    {
      CursoredConsAt(buf, ceiling, result, tail, k);
    }
  }

  /** Entry `k` of the prefixed record is part `k` of the cursor model. */
  lemma CursoredConsAt(buf: Bytes, ceiling: nat, result: (string, Decision), tail: PartsSent, k: nat)
    requires Cursored(Cut(buf, ceiling).1, ceiling, tail)
    requires k < |tail.parts| + 1
    ensures var s := Prefixed(buf, ceiling, result, tail);
      && s.parts[k] == PartAt(buf, ceiling, k)
      && s.nextSizes[k] == |PartAt(buf, ceiling, k + 1)|
  {
    if k == 0 {
      HeadIsFirstPart(buf, ceiling);
    } else {
      CursoredAt(Cut(buf, ceiling).1, ceiling, tail, k - 1, k);
      CursoredConsLater(buf, ceiling, result, tail, k - 1, k);
    }
  }

  /** Entry `k = j + 1` of the prefixed record is entry `j` of the record over the
      drained buffer, which is part `k` of the whole buffer. */
  lemma CursoredConsLater(buf: Bytes, ceiling: nat, result: (string, Decision), tail: PartsSent, j: nat, k: nat)
    requires tail.WellFormed() && j < |tail.parts| && k == j + 1
    requires tail.parts[j] == PartAt(Cut(buf, ceiling).1, ceiling, j)
    requires tail.nextSizes[j] == |PartAt(Cut(buf, ceiling).1, ceiling, k)|
    ensures var s := Prefixed(buf, ceiling, result, tail);
      && s.parts[k] == PartAt(buf, ceiling, k)
      && s.nextSizes[k] == |PartAt(buf, ceiling, k + 1)|
  {
    PrefixedLater(buf, ceiling, result, tail, j, k);
    DrainShiftsTo(buf, ceiling, j, k);
    DrainShiftsTo(buf, ceiling, k, k + 1);
  }

  /** The first drain cuts the first part, and passes the size of the second. */
  lemma HeadIsFirstPart(buf: Bytes, ceiling: nat)
    ensures Cut(buf, ceiling).0 == PartAt(buf, ceiling, 0)
    ensures Take(|Cut(buf, ceiling).1|, ceiling) == |PartAt(buf, ceiling, 1)|
  {
    FirstPartIsCut(buf, ceiling);
    NextSizeIsNextPart(buf, ceiling, 0);
    assert Offset(|buf|, ceiling, 1) == Take(|buf|, ceiling);
  }

  /** Entry `j` of a record that follows the cursor model, with `k = j + 1` named. */
  lemma CursoredAt(buf: Bytes, ceiling: nat, s: PartsSent, j: nat, k: nat)
    requires Cursored(buf, ceiling, s)
    requires j < |s.parts| && k == j + 1
    ensures s.parts[j] == PartAt(buf, ceiling, j)
    ensures s.nextSizes[j] == |PartAt(buf, ceiling, k)|
  {
  }

  /** Prefixing the first iteration's outcome to the outcomes of the later iterations
      gives the outcomes of all iterations. */
  lemma SteppedCons(step: Step, buf: Bytes, ceiling: nat, index: nat, result: (string, Decision), tail: PartsSent)
    requires step(index, Cut(buf, ceiling).0, Take(|Cut(buf, ceiling).1|, ceiling)) == Success(result)
    requires Stepped(step, index + 1, tail)
    ensures Stepped(step, index, Prefixed(buf, ceiling, result, tail))
  {
    var s := Prefixed(buf, ceiling, result, tail);
    forall k | 0 <= k < |s.parts|
      ensures step(index + k, s.parts[k], s.nextSizes[k]) == Success((s.ids[k], s.pauses[k]))
    {
      if k > 0 {
        SteppedAt(step, index + 1, tail, k - 1, index + k);
        PrefixedLater(buf, ceiling, result, tail, k - 1, k);
      }
    }
  }

  /** Entry `j` of a record of outcomes, with its iteration number `i` named. */
  lemma SteppedAt(step: Step, index: nat, s: PartsSent, j: nat, i: nat)
    requires Stepped(step, index, s)
    requires j < |s.parts| && i == index + j
    ensures step(i, s.parts[j], s.nextSizes[j]) == Success((s.ids[j], s.pauses[j]))
  {
  }

  /** Entry `k = j + 1` of the prefixed record is entry `j` of the rest. */
  lemma PrefixedLater(buf: Bytes, ceiling: nat, result: (string, Decision), tail: PartsSent, j: nat, k: nat)
    requires tail.WellFormed() && j < |tail.parts| && k == j + 1
    ensures var s := Prefixed(buf, ceiling, result, tail);
      && s.parts[k] == tail.parts[j] && s.ids[k] == tail.ids[j]
      && s.nextSizes[k] == tail.nextSizes[j] && s.pauses[k] == tail.pauses[j]
  {
  }

  /** Iteration `k` of the loop is the first to fail, and fails with `e`. */
  predicate FailsFirstAt(step: Step, buf: Bytes, ceiling: nat, index: nat, k: nat, e: UploadError) {
    && step(index + k, PartAt(buf, ceiling, k), |PartAt(buf, ceiling, k + 1)|) == Failure(e)
    && forall j :: 0 <= j < k ==> step(index + j, PartAt(buf, ceiling, j), |PartAt(buf, ceiling, j + 1)|).Success?
  }

  /** A failed loop stopped at the first part whose iteration failed, with that
      iteration's error; every earlier iteration succeeded, so nothing after the failing
      part was sent. */
  lemma {:induction false} UploadPartsFailFast(step: Step, buf: Bytes, ceiling: nat, index: nat, remaining: nat)
    requires UploadParts(step, buf, ceiling, index, remaining).Failure?
    ensures exists k :: 0 <= k < remaining && FailsFirstAt(step, buf, ceiling, index, k, UploadParts(step, buf, ceiling, index, remaining).error)
    decreases remaining
  {
    var e := UploadParts(step, buf, ceiling, index, remaining).error;
    var part := Cut(buf, ceiling).0;
    var rest := Cut(buf, ceiling).1;
    HeadIsFirstPart(buf, ceiling);
    if step(index, part, Take(|rest|, ceiling)).Success? {
      assert e == UploadParts(step, rest, ceiling, index + 1, remaining - 1).error;
      UploadPartsFailFast(step, rest, ceiling, index + 1, remaining - 1);
      var k :| 0 <= k < remaining - 1 && FailsFirstAt(step, rest, ceiling, index + 1, k, e);
      FailsFirstCons(step, buf, ceiling, index, k, e);
    } else {
      assert FailsFirstAt(step, buf, ceiling, index, 0, e);
    }
  }

  /** A first iteration that succeeds moves the first failure of the loop over the
      drained buffer one place later in the loop over the whole buffer. */
  lemma FailsFirstCons(step: Step, buf: Bytes, ceiling: nat, index: nat, k: nat, e: UploadError)
    requires step(index, PartAt(buf, ceiling, 0), |PartAt(buf, ceiling, 1)|).Success?
    requires FailsFirstAt(step, Cut(buf, ceiling).1, ceiling, index + 1, k, e)
    ensures FailsFirstAt(step, buf, ceiling, index, k + 1, e)
  {
    StepShift(step, buf, ceiling, index, k, k + 1);
    forall i | 0 <= i < k + 1
      ensures step(index + i, PartAt(buf, ceiling, i), |PartAt(buf, ceiling, i + 1)|).Success?
    {
      if i > 0 {
        EarlierStepSucceeds(step, buf, ceiling, index, k, e, i);
      }
    }
  }

  /** An iteration `i` of the whole loop before the first failing one is an iteration
      `i - 1` of the loop over the drained buffer, which succeeded. */
  lemma EarlierStepSucceeds(step: Step, buf: Bytes, ceiling: nat, index: nat, k: nat, e: UploadError, i: nat)
    requires FailsFirstAt(step, Cut(buf, ceiling).1, ceiling, index + 1, k, e)
    requires 1 <= i <= k
    ensures step(index + i, PartAt(buf, ceiling, i), |PartAt(buf, ceiling, i + 1)|).Success?
  {
    StepShift(step, buf, ceiling, index, i - 1, i);
  }

  /** Iteration `j` of the loop over the drained buffer is iteration `k = j + 1` of the
      loop over the whole buffer. */
  lemma StepShift(step: Step, buf: Bytes, ceiling: nat, index: nat, j: nat, k: nat)
    requires k == j + 1
    ensures step(index + 1 + j, PartAt(Cut(buf, ceiling).1, ceiling, j), |PartAt(Cut(buf, ceiling).1, ceiling, j + 1)|)
         == step(index + k, PartAt(buf, ceiling, k), |PartAt(buf, ceiling, k + 1)|)
  {
    DrainShiftsTo(buf, ceiling, j, k);
    DrainShiftsTo(buf, ceiling, k, k + 1);
  }

  /** Dropping the first iteration of a loop whose first failure is at `k = j + 1`
      leaves the loop over the drained buffer, whose first failure is at `j`. */
  lemma FailsFirstTail(step: Step, buf: Bytes, ceiling: nat, index: nat, j: nat, k: nat, e: UploadError)
    requires k == j + 1
    requires FailsFirstAt(step, buf, ceiling, index, k, e)
    ensures FailsFirstAt(step, Cut(buf, ceiling).1, ceiling, index + 1, j, e)
  {
    StepShift(step, buf, ceiling, index, j, k);
    forall i | 0 <= i < j
      ensures step(index + 1 + i, PartAt(Cut(buf, ceiling).1, ceiling, i), |PartAt(Cut(buf, ceiling).1, ceiling, i + 1)|).Success?
    {
      LaterStepSucceeds(step, buf, ceiling, index, k, e, i, i + 1);
    }
  }

  /** An iteration `i` of the loop over the drained buffer before its first failure
      is iteration `l = i + 1` of the whole loop, which succeeded. */
  lemma LaterStepSucceeds(step: Step, buf: Bytes, ceiling: nat, index: nat, k: nat, e: UploadError, i: nat, l: nat)
    requires FailsFirstAt(step, buf, ceiling, index, k, e)
    requires l == i + 1 && l < k
    ensures step(index + 1 + i, PartAt(Cut(buf, ceiling).1, ceiling, i), |PartAt(Cut(buf, ceiling).1, ceiling, i + 1)|).Success?
  {
    StepShift(step, buf, ceiling, index, i, l);
  }

  /** A loop whose first failing iteration is `k`, with more than `k` iterations to
      run, fails with that iteration's error. */
  lemma {:induction false} UploadPartsStopsAt(step: Step, buf: Bytes, ceiling: nat, index: nat, remaining: nat,
                                              k: nat, e: UploadError)
    requires k < remaining
    requires FailsFirstAt(step, buf, ceiling, index, k, e)
    ensures UploadParts(step, buf, ceiling, index, remaining) == Failure(e)
    decreases remaining
  {
    HeadIsFirstPart(buf, ceiling);
    if k == 0 {
      assert step(index + 0, PartAt(buf, ceiling, 0), |PartAt(buf, ceiling, 0 + 1)|) == Failure(e);
    } else {
      assert step(index + 0, PartAt(buf, ceiling, 0), |PartAt(buf, ceiling, 0 + 1)|).Success?;
      FailsFirstTail(step, buf, ceiling, index, k - 1, k, e);
      UploadPartsStopsAt(step, Cut(buf, ceiling).1, ceiling, index + 1, remaining - 1, k - 1, e);
    }
  }

  /** The converse of `FailsFirstAtPart`: part iterations that succeed up to a failing
      part `k` make `k` the first failure of the service's loop. */
  lemma PartFailsFirstAt(svc: Service, name: string, file: Bytes, ceiling: nat, k: nat, e: UploadError)
    requires PartStep(svc, name, k, PartAt(file, ceiling, k), |PartAt(file, ceiling, k + 1)|) == Failure(e)
    requires forall j :: 0 <= j < k ==>
               PartStep(svc, name, j, PartAt(file, ceiling, j), |PartAt(file, ceiling, j + 1)|).Success?
    ensures FailsFirstAt(StepOf(svc, name), file, ceiling, 0, k, e)
  {
    assert StepOf(svc, name)(0 + k, PartAt(file, ceiling, k), |PartAt(file, ceiling, k + 1)|) == Failure(e);
    forall j | 0 <= j < k
      ensures StepOf(svc, name)(0 + j, PartAt(file, ceiling, j), |PartAt(file, ceiling, j + 1)|).Success?
    {
      assert PartStep(svc, name, j, PartAt(file, ceiling, j), |PartAt(file, ceiling, j + 1)|).Success?;
    }
  }

  /** The `upload` subcommand from the file's bytes on: refuse a file that fits in one
      attachment, run the part loop `PartCount` times, then post the manifest naming
      the ids in upload order. */
  function Upload(svc: Service, name: string, file: Bytes, ceiling: nat): (r: Result<Uploaded, UploadError>)
    ensures r == Failure(FileTooSmall) <==> |file| <= ceiling
    ensures r.Success? ==> r.value.sent.WellFormed() && |r.value.sent.parts| == PartCount(|file|, ceiling)
    ensures r.Success? ==> r.value.manifest == Encode(name, r.value.sent.ids)
    ensures r.Success? ==> svc.postManifest(MetaName(name), r.value.manifest) == Some(r.value.metaId)
    ensures r.Failure? && !r.error.AtPart() && r.error != FileTooSmall ==>
      r.error == ManifestUploadFailed
      && UploadParts(StepOf(svc, name), file, ceiling, 0, PartCount(|file|, ceiling)).Success?
      && svc.postManifest(MetaName(name), Encode(name, UploadParts(StepOf(svc, name), file, ceiling, 0,
                                                            PartCount(|file|, ceiling)).value.ids)) == None
  {
    if |file| <= ceiling then Failure(FileTooSmall)
    else
      var count := PartCount(|file|, ceiling);
      var loop := UploadParts(StepOf(svc, name), file, ceiling, 0, count);
      if loop.Failure? then
        PartLoopErrorIsAtPart(svc, name, file, ceiling, count);
        Failure(loop.error)
      else
        var manifest := Encode(name, loop.value.ids);
        match svc.postManifest(MetaName(name), manifest)
        case None => Failure(ManifestUploadFailed)
        case Some(metaId) => Success(Uploaded(metaId, manifest, loop.value))
  }

  /** The part loop only ever fails with the error of one part's iteration. */
  lemma PartLoopErrorIsAtPart(svc: Service, name: string, file: Bytes, ceiling: nat, count: nat)
    requires UploadParts(StepOf(svc, name), file, ceiling, 0, count).Failure?
    ensures UploadParts(StepOf(svc, name), file, ceiling, 0, count).error.AtPart()
  {
    UploadPartsFailFast(StepOf(svc, name), file, ceiling, 0, count);
  }

  /** A successful upload's record is that of its part loop. */
  lemma UploadRecordIsLoop(svc: Service, name: string, file: Bytes, ceiling: nat)
    requires Upload(svc, name, file, ceiling).Success?
    ensures |file| > ceiling
    ensures UploadParts(StepOf(svc, name), file, ceiling, 0, PartCount(|file|, ceiling)).Success?
    ensures Upload(svc, name, file, ceiling).value.sent
              == UploadParts(StepOf(svc, name), file, ceiling, 0, PartCount(|file|, ceiling)).value
  {}

  /** What a successful upload sent: at least two parts, all but the last of exactly
      `ceiling` bytes, which in index order are the whole file; after each part the
      limiter was told the size of the next one, and 0 after the last. */
  lemma UploadSendsFileInOrder(svc: Service, name: string, file: Bytes, ceiling: nat)
    requires ceiling > 0
    requires Upload(svc, name, file, ceiling).Success?
    ensures var s := Upload(svc, name, file, ceiling).value.sent;
      && |s.parts| >= 2
      && Concat(s.parts) == file
      && (forall k :: 0 <= k < |s.parts| - 1 ==> |s.parts[k]| == ceiling)
      && 1 <= |s.parts[|s.parts| - 1]| <= ceiling
      && (forall k :: 0 <= k < |s.parts| - 1 ==> s.nextSizes[k] == |s.parts[k + 1]|)
      && s.nextSizes[|s.parts| - 1] == 0
  {
    var s := Upload(svc, name, file, ceiling).value.sent;
    UploadRecordIsLoop(svc, name, file, ceiling);
    UploadedParts(svc, name, file, ceiling);
    SentShape(file, ceiling, s.parts, s.nextSizes);
  }

  /** The parts of the cursor model with the next sizes the loop passes: the shape of
      what a successful upload sent. */
  lemma SentShape(file: Bytes, ceiling: nat, parts: seq<Bytes>, nextSizes: seq<nat>)
    requires 0 < ceiling < |file|
    requires parts == Parts(file, ceiling, PartCount(|file|, ceiling))
    requires |nextSizes| == |parts|
    requires forall k :: 0 <= k < |parts| ==> nextSizes[k] == |PartAt(file, ceiling, k + 1)|
    ensures |parts| >= 2
    ensures Concat(parts) == file
    ensures forall k :: 0 <= k < |parts| - 1 ==> |parts[k]| == ceiling
    ensures 1 <= |parts[|parts| - 1]| <= ceiling
    ensures forall k :: 0 <= k < |parts| - 1 ==> nextSizes[k] == |parts[k + 1]|
    ensures nextSizes[|parts| - 1] == 0
  {
    var count := PartCount(|file|, ceiling);
    SplitIsExact(file, ceiling);
    NothingAfterLast(file, ceiling, count - 1, count);
  }

  /** The part after the last one is empty. */
  lemma NothingAfterLast(file: Bytes, ceiling: nat, j: nat, k: nat)
    requires 0 < ceiling && k == PartCount(|file|, ceiling) && k == j + 1
    ensures |PartAt(file, ceiling, j + 1)| == 0
  {
    PartSize(file, ceiling, k);
    MulDist(k + 1, 1, ceiling);
  }

  /** The record of a successful upload is the cursor model's parts, and each next
      size is the size of the cursor model's following part. */
  lemma UploadedParts(svc: Service, name: string, file: Bytes, ceiling: nat)
    requires Upload(svc, name, file, ceiling).Success?
    ensures var s := Upload(svc, name, file, ceiling).value.sent;
      && s.parts == Parts(file, ceiling, PartCount(|file|, ceiling))
      && forall k :: 0 <= k < |s.parts| ==> s.nextSizes[k] == |PartAt(file, ceiling, k + 1)|
  {
    var count := PartCount(|file|, ceiling);
    UploadRecordIsLoop(svc, name, file, ceiling);
    UploadPartsTrace(StepOf(svc, name), file, ceiling, 0, count);
    TracedParts(file, ceiling, UploadParts(StepOf(svc, name), file, ceiling, 0, count).value);
  }

  /** A traced record holds the parts of the cursor model, and each next size is the
      size of the following part of the cursor model. */
  lemma TracedParts(buf: Bytes, ceiling: nat, s: PartsSent)
    requires Cursored(buf, ceiling, s)
    ensures s.parts == Parts(buf, ceiling, |s.parts|)
    ensures forall k :: 0 <= k < |s.parts| ==> s.nextSizes[k] == |PartAt(buf, ceiling, k + 1)|
  {
    var parts := Parts(buf, ceiling, |s.parts|);
    assert forall k :: 0 <= k < |s.parts| ==> s.parts[k] == parts[k];
  }

  /** Each part of a successful upload was posted as `"{name}-{i}"` and its own
      iteration (post, throttle, read id) produced the recorded id and decision. */
  lemma UploadRecordsEachPart(svc: Service, name: string, file: Bytes, ceiling: nat)
    requires Upload(svc, name, file, ceiling).Success?
    ensures var s := Upload(svc, name, file, ceiling).value.sent;
      forall k :: 0 <= k < |s.parts| ==>
        && s.parts[k] == PartAt(file, ceiling, k)
        && PartStep(svc, name, k, s.parts[k], s.nextSizes[k]) == Success((s.ids[k], s.pauses[k]))
  {
    var count := PartCount(|file|, ceiling);
    var s := Upload(svc, name, file, ceiling).value.sent;
    UploadRecordIsLoop(svc, name, file, ceiling);
    UploadPartsTrace(StepOf(svc, name), file, ceiling, 0, count);
    forall k | 0 <= k < count
      ensures PartStep(svc, name, k, s.parts[k], s.nextSizes[k]) == Success((s.ids[k], s.pauses[k]))
    {
      assert StepOf(svc, name)(0 + k, s.parts[k], s.nextSizes[k]) == Success((s.ids[k], s.pauses[k]));
    }
  }

  /** A failed part stops the upload: the error is that of the first part whose
      iteration failed, it names that part's index, and no manifest is posted. */
  lemma UploadFailsFast(svc: Service, name: string, file: Bytes, ceiling: nat)
    requires Upload(svc, name, file, ceiling).Failure? && Upload(svc, name, file, ceiling).error.AtPart()
    ensures var e := Upload(svc, name, file, ceiling).error;
      && e.index < PartCount(|file|, ceiling)
      && PartStep(svc, name, e.index, PartAt(file, ceiling, e.index), |PartAt(file, ceiling, e.index + 1)|) == Failure(e)
      && forall j :: 0 <= j < e.index ==>
           PartStep(svc, name, j, PartAt(file, ceiling, j), |PartAt(file, ceiling, j + 1)|).Success?
  {
    var count := PartCount(|file|, ceiling);
    var e := Upload(svc, name, file, ceiling).error;
    UploadErrorIsLoopError(svc, name, file, ceiling);
    UploadPartsFailFast(StepOf(svc, name), file, ceiling, 0, count);
    var k :| 0 <= k < count && FailsFirstAt(StepOf(svc, name), file, ceiling, 0, k, e);
    FailsFirstAtPart(svc, name, file, ceiling, k, e);
  }

  /** An upload that fails at a part fails with the error of its part loop. */
  lemma UploadErrorIsLoopError(svc: Service, name: string, file: Bytes, ceiling: nat)
    requires Upload(svc, name, file, ceiling).Failure? && Upload(svc, name, file, ceiling).error.AtPart()
    ensures UploadParts(StepOf(svc, name), file, ceiling, 0, PartCount(|file|, ceiling)).Failure?
    ensures UploadParts(StepOf(svc, name), file, ceiling, 0, PartCount(|file|, ceiling)).error
         == Upload(svc, name, file, ceiling).error
  {
  }

  /** `FailsFirstAt` for the loop of a service, in terms of its part iterations. */
  lemma FailsFirstAtPart(svc: Service, name: string, file: Bytes, ceiling: nat, k: nat, e: UploadError)
    requires FailsFirstAt(StepOf(svc, name), file, ceiling, 0, k, e)
    ensures k == e.index
    ensures PartStep(svc, name, k, PartAt(file, ceiling, k), |PartAt(file, ceiling, k + 1)|) == Failure(e)
    ensures forall j :: 0 <= j < k ==>
              PartStep(svc, name, j, PartAt(file, ceiling, j), |PartAt(file, ceiling, j + 1)|).Success?
  {
    assert StepOf(svc, name)(0 + k, PartAt(file, ceiling, k), |PartAt(file, ceiling, k + 1)|) == Failure(e);
    forall j | 0 <= j < k
      ensures PartStep(svc, name, j, PartAt(file, ceiling, j), |PartAt(file, ceiling, j + 1)|).Success?
    {
      assert StepOf(svc, name)(0 + j, PartAt(file, ceiling, j), |PartAt(file, ceiling, j + 1)|).Success?;
    }
  }

  /** The converse of `UploadFailsFast`: when every part before `k` goes through and
      part `k`'s iteration fails, the upload fails with that error. */
  lemma UploadStopsAtFirstFailingPart(svc: Service, name: string, file: Bytes, ceiling: nat, k: nat, e: UploadError)
    requires |file| > ceiling && k < PartCount(|file|, ceiling)
    requires PartStep(svc, name, k, PartAt(file, ceiling, k), |PartAt(file, ceiling, k + 1)|) == Failure(e)
    requires forall j :: 0 <= j < k ==>
               PartStep(svc, name, j, PartAt(file, ceiling, j), |PartAt(file, ceiling, j + 1)|).Success?
    ensures Upload(svc, name, file, ceiling) == Failure(e)
  {
    PartFailsFirstAt(svc, name, file, ceiling, k, e);
    UploadPartsStopsAt(StepOf(svc, name), file, ceiling, 0, PartCount(|file|, ceiling), k, e);
  }

  /** A rate-limit error after part `k`, once every earlier part went through, aborts
      the upload with that error: no later part and no manifest is posted. */
  lemma UploadAbortsOnRateLimit(svc: Service, name: string, file: Bytes, ceiling: nat, k: nat,
                                response: Response, e: HeaderError)
    requires |file| > ceiling && k < PartCount(|file|, ceiling)
    requires forall j :: 0 <= j < k ==>
               PartStep(svc, name, j, PartAt(file, ceiling, j), |PartAt(file, ceiling, j + 1)|).Success?
    requires svc.postPart(PartName(name, k), PartAt(file, ceiling, k)) == Some(response)
    requires RateLimit(response.headers, |PartAt(file, ceiling, k + 1)|, svc.clock(k)) == Failure(e)
    ensures Upload(svc, name, file, ceiling) == Failure(RateLimitFailed(k, e))
  {
    UploadStopsAtFirstFailingPart(svc, name, file, ceiling, k, RateLimitFailed(k, e));
  }

  /** The converse of `UploadFailsFast`: when every part's iteration goes through, the
      upload can fail only at the manifest post, and succeeds when that post does. */
  lemma UploadSucceeds(svc: Service, name: string, file: Bytes, ceiling: nat)
    requires |file| > ceiling
    requires forall j :: 0 <= j < PartCount(|file|, ceiling) ==>
               PartStep(svc, name, j, PartAt(file, ceiling, j), |PartAt(file, ceiling, j + 1)|).Success?
    ensures Upload(svc, name, file, ceiling).Failure? ==> Upload(svc, name, file, ceiling).error == ManifestUploadFailed
    ensures (forall text :: svc.postManifest(MetaName(name), text).Some?) ==> Upload(svc, name, file, ceiling).Success?
  {
    var r := Upload(svc, name, file, ceiling);
    if r.Failure? && r.error.AtPart() {
      UploadFailsFast(svc, name, file, ceiling);
      assert false;
    }
  }

  /** With a zero attachment limit every drain takes nothing: an upload of a non-empty
      file that succeeds has sent 2^64 - 1 empty parts, which join to nothing, so the
      file's bytes never leave. */
  lemma ZeroCeilingSendsNoBytes(svc: Service, name: string, file: Bytes)
    requires Upload(svc, name, file, 0).Success?
    ensures var s := Upload(svc, name, file, 0).value.sent;
      && |s.parts| == U64_MODULUS - 1
      && (forall k :: 0 <= k < |s.parts| ==> s.parts[k] == [])
      && Concat(s.parts) == []
      && Concat(s.parts) != file
  {
    var count := PartCount(|file|, 0);
    var s := Upload(svc, name, file, 0).value.sent;
    UploadedParts(svc, name, file, 0);
    forall k | 0 <= k < |s.parts| ensures s.parts[k] == [] {
      ZeroCeilingPartEmpty(file, k);
    }
    PartsConcat(file, 0, count);
    OffsetClosedForm(|file|, 0, count);
  }
}

=== FILE: wrappers.dfy ===
/** Failure-compatible Option and Result types used by every module of the model. */
module Wrappers {

  datatype Option<+T> = None | Some(value: T) {

    predicate IsFailure() {
      None?
    }

    function PropagateFailure<U>(): Option<U>
      requires None?
    {
      None
    }

    function Extract(): T
      requires Some?
    {
      value
    }

    /** Turns a missing value into the given error. */
    function ToResult<E>(error: E): Result<T, E> {
      match this
      case Some(v) => Success(v)
      case None => Failure(error)
    }
  }

  datatype Result<+T, +E> = Success(value: T) | Failure(error: E) {

    predicate IsFailure() {
      Failure?
    }

    function PropagateFailure<U>(): Result<U, E>
      requires Failure?
    {
      Failure(error)
    }

    function Extract(): T
      requires Success?
    {
      value
    }
  }
}
